=== FILE: README.md ===
# GifCap core, modelled in Dafny

GifCap records an area of the screen into an animated GIF. It exists in two
generations, and this model covers the core of both.

The Python application:

- The capture engine grabs the selected region on every timer tick and
  optionally composites the mouse cursor onto the frame.
- A frame that is "identical" to the previous one (at most 1% of its channel
  values differ, and the cursor has not moved) is not stored. Instead
  its tick is added to the previous frame's delay.
- Frames live in a frame store, either in memory or as numbered files on disk.
- The editor window deletes single frames, everything before or after a frame,
  or every even-numbered frame, and changes frame delays.

The Rust application:

- A recording session keeps each frame with its capture time. A frame's delay
  is the gap to the next frame's time.
- Setting a delay shifts every later timestamp.
- The capture worker converts BGRA screen buffers to RGBA, stamps a built-in
  arrow cursor onto the image and crops the requested area.
- The recorder and editor screens turn UI messages into state changes.

Modules:

| module | contents |
|---|---|
| `Wrappers` | `Option` and `Result`. |
| `Sequences` | Deleting one index, deleting a set of indices, deleting in descending order, and insertion sort in descending order. Also the lemmas that connect them. |
| `FrameStorage` | The frame store (`class Store`), in RAM or disk mode. Disk files are a map from file numbers to images. |
| `EditorWindow` | The Python editor window's deletion and delay operations over a store. |
| `CaptureEngine` | The Python capture engine (`class Engine`). It holds the session detection, the fps clamp, the frame similarity test, the cursor composite and the run-length accounting of repeated frames. |
| `Recording` | The Rust `RecordingSession`. |
| `Text` | Rust's `char::is_numeric`, `str::parse::<u64>` and integer `to_string`, as the two screens use them. |
| `EditorUi` | The Rust editor screen (`class Editor`). |
| `RecorderUi` | The Rust recorder screen (`class Recorder`). |
| `CaptureBuffers` | The Rust capture worker's in-place swizzle (an `array`), cursor stamp (an `array2`) and crop arithmetic. |

State the source updates in place is modelled as classes: the store, the
engine, the session, the editor window and the two screens. The buffers are
arrays changed in place. Pure computations are functions, and each method is
specified by functions about which lemmas are proved.

## Model

| member | source | states |
|---|---|---|
| `FrameStorage.Store.constructor` | src/frame_storage.py:15-28 | A new store is empty in either mode, with no files and file numbering at zero. |
| `FrameStorage.Store.AddFrame` | src/frame_storage.py:30-60 | The logical contents grow by exactly the new (image, delay) entry. The returned frame number is the old count. In disk mode the image goes to a fresh file number, and no other file changes. |
| `FrameStorage.Store.AddFrameAsWritten` | src/frame_storage.py:30-60 | In disk mode the file number is the current frame count, as the source builds the path. That file is overwritten in the file map. |
| `FrameStorage.Store.GetFrame` | src/frame_storage.py:62-71 | Gives the image of frame n when n is in range, and nothing otherwise. |
| `FrameStorage.Store.GetFrameCount` | src/frame_storage.py:73-75 | Gives the number of stored frames. |
| `FrameStorage.Store.GetDelay` | src/frame_storage.py:77-81 | Gives the stored delay in range, and 100 ms out of range. |
| `FrameStorage.Store.SetDelay` | src/frame_storage.py:83-86 | Only frame n's delay changes, and only when n is in range. Images, the other delays, the files and the file numbering are kept. |
| `FrameStorage.Store.UpdateLastFrameDelay` | src/frame_storage.py:88-91 | Only the last frame's delay changes, and the files and the file numbering are kept. An empty store is left alone. |
| `FrameStorage.Store.DeleteFrame` | src/frame_storage.py:93-114 | Succeeds iff n is in range. The contents lose exactly entry n, and later frames keep their files while being renumbered. In disk mode exactly that frame's file is removed. |
| `FrameStorage.Store.Renumber` | src/frame_storage.py:110-112 | Every record's frame number becomes its position. Nothing else in the record changes. |
| `FrameStorage.Store.DeleteFrames` | src/frame_storage.py:116-119 | The result is deleting the requested numbers one by one in descending order. For distinct numbers it equals removing exactly that set of positions, keeping the survivors in order. |
| `FrameStorage.Store.GetAllFrames` | src/frame_storage.py:121-124 | Gives every (image, delay) pair in frame order. |
| `FrameStorage.Store.Cleanup` | src/frame_storage.py:126-137 | Afterwards the store holds no frames and no files. An already empty store is unchanged. |
| `FrameStorage.TotalDelayWithLast` | src/frame_storage.py:88-91 | Overwriting the last delay changes the total play time by exactly the difference between the new and old delay. |
| `FrameStorage.PathCollisionAsWritten` | src/frame_storage.py:42 | Store 10, 20, 30 on disk, delete frame 0 and add 40: frame 1, whose image was 30, now reads back 40. |
| `FrameStorage.PathsStayDistinct` | src/frame_storage.py:30-60 | The same steps with fresh file numbers: frame 1 still reads back 30. |
| `Sequences.DeleteDescendingIsRemoveSet` | src/frame_storage.py:116-119 | Deleting strictly descending positions one at a time equals removing that set of positions. |
| `Sequences.SortDescOfDistinct` | src/frame_storage.py:118 | Reverse sorting distinct frame numbers gives a strictly descending sequence of the same numbers. |
| `EditorWindow.Range` | src/editor_window.py:29 | `range(lo, hi)` contains exactly lo..hi-1, in increasing order. |
| `EditorWindow.EditorWindow.DeleteFrame` | src/editor_window.py:265-277 | When confirmed, exactly frame n is removed. Otherwise nothing changes. |
| `EditorWindow.EditorWindow.DeleteToBeginning` | src/editor_window.py:279-292 | When confirmed, the frames after n remain in order. If n is past the end, no frame remains. |
| `EditorWindow.EditorWindow.DeleteToEnd` | src/editor_window.py:294-310 | When confirmed, exactly the first n frames remain, or all of them if n is past the end. |
| `EditorWindow.EditorWindow.DeleteEvenFrames` | src/editor_window.py:312-327 | When confirmed, half the frames (rounded down) remain. Remaining frame k is former frame 2k+1. |
| `EditorWindow.EvenIndices` | src/editor_window.py:316 | The list holds exactly the even numbers below the count, in increasing order. |
| `EditorWindow.EditorWindow.ShowDelayDialog` | src/editor_window.py:329-350 | When accepted, every frame's delay (apply to all) or frame n's delay becomes the new value. Images are untouched. |
| `Sequences.RemoveEvens` | src/editor_window.py:312-327 | Removing the even positions leaves half the entries (rounded down), entry k being former entry 2k+1. |
| `Sequences.RemoveUpTo` | src/editor_window.py:279-292 | Removing positions 0..n leaves the suffix after n. |
| `Sequences.RemoveFrom` | src/editor_window.py:294-310 | Removing positions n.. leaves the prefix of length n. |
| `CaptureEngine.DetectSession` | src/capture_engine.py:57-64 | A non-empty `WAYLAND_DISPLAY` or an `XDG_SESSION_TYPE` of "wayland" (any ASCII case) gives Wayland. Either one alone suffices, and every other combination gives X11. |
| `CaptureEngine.AsciiLower` | src/capture_engine.py:60 | Same length. Exactly the ASCII capitals are lowered. |
| `CaptureEngine.Engine.constructor` | src/capture_engine.py:19-55 | Wayland is kept only when the portal is available, otherwise X11. Cursor capture exists only on X11. The engine starts idle at 30 fps with no region and no previous frame. |
| `CaptureEngine.Engine.SetCaptureRegion` | src/capture_engine.py:66-68 | The region becomes the given rectangle. |
| `CaptureEngine.ClampFps` | src/capture_engine.py:70-72 | The result lies in 1..60. It equals the input inside that range and the nearer bound outside it. |
| `CaptureEngine.Engine.SetFps` | src/capture_engine.py:70-72 | The rate becomes the clamped input. |
| `CaptureEngine.TickIsFloor` | src/capture_engine.py:124 | The tick length is the floor of 1000/fps: tick·fps ≤ 1000 < (tick+1)·fps. |
| `CaptureEngine.FramesIdentical` | src/capture_engine.py:240-273 | Identical only for equal sizes and equal, non-empty sample counts. Then identical iff 100·equal ≥ 99·total. A size mismatch, a channel-count mismatch (numpy raises, and the handler answers False) or an empty frame (0/0 is nan, which compares False) gives False. |
| `CaptureEngine.FramesIdenticalIffFewDifferences` | src/capture_engine.py:240-273 | Two equal-sized, non-empty frames are identical iff at most 1% of their channel values differ. |
| `CaptureEngine.FramesIdenticalReflexive` | src/capture_engine.py:240-273 | Every non-empty frame is identical to itself. |
| `CaptureEngine.SingleEntryNoiseIsIdentical` | src/capture_engine.py:240-273 | With at least 100 samples, changing one channel value keeps the frames identical. |
| `CaptureEngine.CursorMoved` | src/capture_engine.py:127-137 | True iff cursor capture is on, both positions are known, and they differ by more than 2 pixels on some axis. |
| `CaptureEngine.CompositeCursor` | src/capture_engine.py:211-238 | The cursor is pasted only with a sprite and a position inside the region, and at the region-relative position. Otherwise the image is returned unchanged. |
| `CaptureEngine.CompositeAtBoundary` | src/capture_engine.py:223-231 | The last row and column of the region still get the cursor. One pixel beyond any edge does not. |
| `CaptureEngine.Engine.GrabScreen` | src/capture_engine.py:164-209 | A failed grab gives nothing, and so does a missing region, where both grabbers raise. With a region, the grab is returned as is without cursor capture. With cursor capture it is the grab after `CompositeCursor`, so the frame compared and stored is the composited one. |
| `CaptureEngine.Engine.StartRecording` | src/capture_engine.py:74-88 | Starts iff a region is set. It clears the previous frame and the accumulated delay, which establishes the run accounting. A refusal changes nothing. |
| `CaptureEngine.Engine.Flush` | src/capture_engine.py:145-150 | The accumulated delay overwrites the last stored frame's delay. |
| `CaptureEngine.Engine.Append` | src/capture_engine.py:152-162 | One frame with a one-tick delay is stored and becomes the previous frame. |
| `CaptureEngine.Engine.Accept` | src/capture_engine.py:139-162 | Flushes, then appends. Preserves the run accounting. |
| `CaptureEngine.Engine.CaptureFrame` | src/capture_engine.py:118-162 | A failed grab changes nothing. A repeat (identical frame, cursor not moved) only adds a tick to the accumulated delay. A new frame flushes the accumulator and is stored with a one-tick delay. In every case the stored frames since the start plus the accumulator account for exactly the elapsed ticks. |
| `CaptureEngine.Engine.CaptureSingleFrame` | src/capture_engine.py:104-116 | Stores one frame of one tick iff a region is set and the grab succeeds. Otherwise nothing is stored. |
| `CaptureEngine.AcceptKeepsAccount` | src/capture_engine.py:139-162 | Flushing and appending a new frame keeps the recording's accounting invariant. |
| `CaptureEngine.FlushedRunLasts` | src/capture_engine.py:145-150 | After the flush, the delays stored since the start add up to the elapsed time exactly. |
| `CaptureEngine.DuplicatedRunOverruns` | src/capture_engine.py:96-99 | Appending a copy of the last frame instead overshoots the elapsed time by the last stored delay. |
| `CaptureEngine.Engine.StopRecording` | src/capture_engine.py:90-102 | Corrected stop: recording ends, and the stored run lasts exactly the elapsed ticks. |
| `CaptureEngine.Engine.StopRecordingAsWritten` | src/capture_engine.py:90-102 | Stop as written: a second copy of the last frame is appended with the accumulated delay. The stored run overshoots as above. |
| `CaptureEngine.StopTraceAsWritten` | src/capture_engine.py:90-102 | At 10 fps, ticks A,A,A,B,B followed by the stop as written store delays 300, 100, 200: 600 ms for 500 ms of ticks. |
| `CaptureEngine.StopTrace` | src/capture_engine.py:90-102 | The same ticks with the corrected stop store 300, 200. |
| `Recording.RecordingSession.constructor` | src/recording.rs:19-24 | A new session has no frames. |
| `Recording.RecordingSession.AddFrame` | src/recording.rs:26-29 | Appends the frame with the clock reading. Timestamps stay ordered when the reading is not earlier than any stored one. |
| `Recording.RecordingSession.Clear` | src/recording.rs:36-39 | No frames remain. |
| `Recording.RecordingSession.RemoveFrame` | src/recording.rs:41-45 | Removes exactly frame i if it exists, otherwise nothing. Timestamp order is kept. |
| `Recording.RecordingSession.FrameCount` | src/recording.rs:31-33 | The number of frames in the session. |
| `Recording.RecordingSession.GetFrameDelay` | src/recording.rs:51-57 | The delay of frame i in the current session: the gap to the next frame's time, or 100 ms for the last frame and past the end. |
| `Recording.FrameDelay` | src/recording.rs:51-57 | The frame's time plus its delay is the next frame's time. The last frame gets 100 ms. |
| `Recording.RecordingSession.SetDelay` | src/recording.rs:59-97 | The frames become `Retimed`: nothing up to the frame moves, and later frames shift by the change in the gap. |
| `Recording.Retimed` | src/recording.rs:59-97 | Images and frames up to the index are kept. The last frame or an index out of range leaves the session unchanged. |
| `Recording.Shift` | src/recording.rs:79-93 | Growing the gap moves a later time forward by the growth. Shrinking it moves the time back by the shrinkage. A time that would land before the frame whose delay is set becomes exactly that frame's time. |
| `Recording.SetDelayHitsTarget` | src/recording.rs:59-97 | After setting frame i's delay to d, frame i's delay reads back d. |
| `Recording.SetDelayKeepsOrder` | src/recording.rs:59-97 | Ordered timestamps stay ordered, and no later frame moves before frame i. |
| `Recording.SetDelayShorterNeverBelowBase` | src/recording.rs:85-93 | When shortening, no later frame moves before frame i. |
| `Recording.SetDelayKeepsOtherGaps` | src/recording.rs:59-97 | In an ordered session every other frame's delay is unchanged. |
| `Recording.SetDelaySameDelayIsIdentity` | src/recording.rs:59-97 | Setting a frame's delay to its current delay changes nothing. |
| `Recording.RecordingSession.SaveDelays` | src/recording.rs:111-117 | The delays handed to the encoder are exactly the frames' `get_frame_delay` values. |
| `Text.ParseU64` | src/ui/recorder.rs:49 | A parse succeeds iff, after an optional leading '+', at least one character remains, all of them ASCII digits, with a value up to 2^64-1. The result is then the value of those digits. |
| `Text.NatToString` | src/ui/editor.rs:47 | Non-empty ASCII digits, with no leading zero. |
| `Text.ParseRendered` | src/ui/editor.rs:46-47 | Rendering a `u64` and parsing it back gives the same number. |
| `Text.RenderedIsNumeric` | src/ui/editor.rs:63 | A rendered number passes the all-numeric input filter. |
| `Text.NumericButUnparseable` | src/ui/recorder.rs:47-49 | The Arabic-Indic digit three passes the numeric filter but does not parse. |
| `EditorUi.Editor.constructor` | src/ui/editor.rs:25-39 | One thumbnail per frame, no selection, delay text "100". |
| `EditorUi.SelectionAfterDelete` | src/ui/editor.rs:54-59 | The selection stays on the strip. It becomes empty exactly when the strip does. It is unchanged while still in range. |
| `EditorUi.Editor.Update` | src/ui/editor.rs:41-76 | Selecting shows the frame's delay. Delete removes the selected frame from the session and the strip and fixes the selection. Input is taken only when all numeric. Set applies the parsed text to the selected frame. Thumbnails always mirror the session. |
| `EditorUi.SelectThenSetIsIdentity` | src/ui/editor.rs:43-73 | For ordered whole-millisecond timestamps, selecting a frame and setting its delay from the unedited text leaves the session unchanged. |
| `RecorderUi.Recorder.constructor` | src/ui/recorder.rs:21-27 | Not recording, 15 fps, text "15". |
| `RecorderUi.Recorder.Update` | src/ui/recorder.rs:37-60 | Record and Stop set the flag. An empty text is shown and keeps the rate. An all-numeric text is shown and sets the rate when it parses to a positive `u64`. Anything else changes nothing. The rate stays positive. |
| `RecorderUi.ClearThenZero` | src/ui/recorder.rs:43-56 | Clearing the field, then typing "0", shows "0" while the rate stays 15. |
| `RecorderUi.TypeRate` | src/ui/recorder.rs:47-56 | "24" sets the rate to 24. A following "24x" is refused. |
| `CaptureBuffers.Swizzle` | src/capture/mod.rs:84-91 | The buffer becomes `Swizzled` of its old contents. In every full 4-byte chunk, bytes 0 and 2 trade places and byte 3 becomes 255. A trailing partial chunk is left alone. |
| `CaptureBuffers.SwizzledChunk` | src/capture/mod.rs:85-91 | The exact bytes of chunk c after the swizzle. |
| `CaptureBuffers.SwizzleTwice` | src/capture/mod.rs:84-91 | Swizzling twice restores the colour order and leaves every full chunk opaque. |
| `CaptureBuffers.StampedPixel` | src/capture/mod.rs:180-194 | A pixel changes only inside the 12×19 box at the cursor. Inside it, an outline cell (1) gives opaque black, a fill cell (2) opaque white, and any other cell keeps the old pixel. |
| `CaptureBuffers.ShapeIsWellFormed` | src/capture/mod.rs:155-175 | The arrow table is 19 rows of 12 cells, each cell 0, 1 or 2. |
| `CaptureBuffers.TipIsBlack` | src/capture/mod.rs:155-189 | The pixel at the cursor position turns black. |
| `CaptureBuffers.StampRow` | src/capture/mod.rs:180-194 | One shape row is stamped onto its image row, clipped to the image. Every other row is untouched. |
| `CaptureBuffers.DrawCursorOnImage` | src/capture/mod.rs:143-195 | Every pixel of the image equals `StampedPixel` of its old value relative to the cursor's image position (mouse minus monitor origin). |
| `CaptureBuffers.CropRequest` | src/capture/mod.rs:100-115 | An area that fits is cropped as requested at the origin clamped to zero. Otherwise the width becomes the smaller of the requested width and the distance from x to the right edge (at least 0), and likewise for the height. It fails exactly when one of those is 0. |
| `CaptureBuffers.CropInsideImage` | src/capture/mod.rs:100-115 | For a non-negative origin, the crop rectangle lies inside the image. |
| `CaptureBuffers.CropOvershootLeftOfImage` | src/capture/mod.rs:105-111 | An area starting 10 pixels left of the image is cropped at 0 with its width shrunk from the right edge only: 110, not 190. |

## Left out

- The Qt and iced user interfaces, timers, threads, the capture worker's channel and `async` plumbing are not modelled. Each operation is modelled as one step.
- GIF encoding, PNG file I/O, the temporary directory and its uuid name are left out. A disk file is a map entry from file number to image.
- The screen grab (mss, the Wayland portal subprocess, `scap`) and the mouse query (`device_query`, Qt's `QCursor.pos()`) are left out. Each becomes a parameter: the grabbed image or its absence, and the cursor position or its absence.
- The session clock (`Instant::elapsed`) is left out. Its reading is the `elapsed` parameter of `Recording.RecordingSession.AddFrame`.
- Durations are whole milliseconds. Sub-millisecond precision and the truncation of `as_millis` are not modelled.
- Python's negative list indices are not modelled. Frame numbers are natural numbers.
- The settings manager and the GIF encoder module are not modelled.
- `CaptureEngine.FramesIdentical`: the source compares the floating-point ratio of equal values with 0.99. The model compares `100 · equal ≥ 99 · total` in exact integers, so it may differ from the source where float rounding matters at the boundary. The numpy array is modelled as the flat sequence of its channel values.
- `CaptureEngine.AsciiLower`: Python's `str.lower` is modelled for ASCII only.
- `CaptureEngine.CompositeCursor`: PIL's alpha-masked paste is a function parameter. Only where and whether it is applied is modelled.
- `Text.IsNumeric`: Rust's `char::is_numeric` is modelled on a listed subset of Unicode numerics (ASCII and Arabic-Indic digits, superscripts, vulgar fractions, Roman numerals and fullwidth digits), not the whole Unicode table.
- `EditorUi.SelectThenSetIsIdentity` holds for whole-millisecond timestamps only. In the source, timestamps have nanosecond precision and `as_millis` truncates the shown delay. A 33.7 ms gap shows "33", and pressing Set then moves every later frame back by 0.7 ms.
- `Recording.RecordingSession.GetFrameDelay` requires the frame not to be later than its successor. Otherwise the source's `Duration` subtraction panics.
- `Recording.RecordingSession.SaveDelays` requires every frame not to be later than its successor, for the same reason: `save_to_file` subtracts each pair of neighbouring timestamps.
- `EditorUi.Editor.Update` requires that a selected index lies in the strip, and that a newly selected frame is not later than its successor. Otherwise the source's `Vec::remove` or `Duration` subtraction panics.
- `CaptureBuffers.CropRequest` requires the coordinates to fit `i32` and `u32` arithmetic. Otherwise the source's `as` casts wrap and its additions overflow. The `imageops::crop` call's own clamping is not modelled.
- `CaptureBuffers.DrawCursorOnImage` takes the cursor table as a parameter with `ShapeWellFormed(shape)`. The worker calls it with `CursorShape`, whose shape is `ShapeIsWellFormed` and whose tip is `TipIsBlack`. With the 19×12 literal inside the method, indexing it at symbolic positions makes the proof too expensive for the solver.
- The frame store and the recording session are generic over the image type `Img`: they only keep and return images, so pixel content plays no part there.
- `FrameStorage.Store.Cleanup` leaves the store usable in disk mode. In the source the frame directory is gone after `rmtree`, so a later `add_frame` would fail to save. The application calls cleanup only when its window closes.

## Findings

| source | as written | input that shows it | evidently intended | confidence | as-written member | corrected member |
|---|---|---|---|---|---|---|
| src/capture_engine.py:96-99 | On stop, the accumulated delay of the last frame is stored as a new, duplicate copy of that frame, and the stored frame keeps its own delay. | At 10 fps, ticks A, A, A, B, B, then stop: delays 300, 100, 200 are stored, which plays 600 ms for 500 ms of capture. | The accumulated delay overwrites the last frame's delay, as a new frame's arrival does (lines 145-150), giving 300, 200. | not executed | `CaptureEngine.StopTraceAsWritten`, `CaptureEngine.Engine.StopRecordingAsWritten`, `CaptureEngine.DuplicatedRunOverruns` | `CaptureEngine.StopTrace`, `CaptureEngine.Engine.StopRecording`, `CaptureEngine.FlushedRunLasts` |
| src/frame_storage.py:42 | A disk frame's file name is built from the current frame count. After a deletion the count is smaller than the highest number in use, so a new frame overwrites a surviving frame's file. | Disk mode: add 10, 20, 30; delete frame 0; add 40. Frame 1, which was 30, now reads back 40. | Each new frame gets a file name not used by any stored frame. | not executed | `FrameStorage.PathCollisionAsWritten`, `FrameStorage.Store.AddFrameAsWritten` | `FrameStorage.PathsStayDistinct`, `FrameStorage.Store.AddFrame` |

=== FILE: capture_buffers.dfy ===
/**
 * The Rust capture worker's pixel routines: the BGRA to RGBA swizzle of a
 * raw frame buffer, the arrow cursor stamped into an RGBA image, and the crop
 * rectangle computed for the requested capture area. The frame bytes, the
 * image and the mouse position are inputs.
 */
module CaptureBuffers {
  import opened Wrappers

  type u8 = x: int | 0 <= x < 256

  /** The image of an `array<u8>` buffer, four bytes per pixel. */
  function Swizzled(s: seq<u8>): (r: seq<u8>)
    ensures |r| == |s|
  {
    if |s| < 4 then s else [s[2], s[1], s[0], 255] + Swizzled(s[4..])
  }

  /** The buffer with every full chunk's fourth byte set to 255. */
  function Opaque(s: seq<u8>): (r: seq<u8>)
    ensures |r| == |s|
  {
    if |s| < 4 then s else [s[0], s[1], s[2], 255] + Opaque(s[4..])
  }

  /** The end of the last full four-byte chunk. */
  function FullChunks(n: nat): (m: nat)
    ensures m <= n && m % 4 == 0 && n - m < 4
  {
    n / 4 * 4
  }

  /**
   * Chunk `c` of a buffer holding at least `c + 1` full chunks: bytes 0 and 2
   * trade places, byte 1 stays and byte 3 becomes 255.
   */
  lemma {:induction false} SwizzledChunk(s: seq<u8>, c: nat)
    requires 4 * c + 4 <= |s|
    ensures Swizzled(s)[4 * c] == s[4 * c + 2]
    ensures Swizzled(s)[4 * c + 1] == s[4 * c + 1]
    ensures Swizzled(s)[4 * c + 2] == s[4 * c]
    ensures Swizzled(s)[4 * c + 3] == 255
  {
    if c > 0 {
      SwizzledChunk(s[4..], c - 1);
    }
  }

  /** A trailing partial chunk is left as it was. */
  lemma {:induction false} SwizzledTail(s: seq<u8>)
    ensures forall i :: FullChunks(|s|) <= i < |s| ==> Swizzled(s)[i] == s[i]
  {
    if |s| >= 4 {
      SwizzledTail(s[4..]);
      assert FullChunks(|s[4..]|) == FullChunks(|s|) - 4;
    }
  }

  /** Swizzling twice restores the colour channels and leaves every full pixel opaque. */
  lemma {:induction false} SwizzleTwice(s: seq<u8>)
    ensures Swizzled(Swizzled(s)) == Opaque(s)
  {
    if |s| >= 4 {
      SwizzleTwice(s[4..]);
      assert Swizzled(s)[4..] == Swizzled(s[4..]);
    }
  }

  /** The swizzle loop over `chunks_exact_mut(4)`. */
  method Swizzle(data: array<u8>)
    modifies data
    ensures data[..] == Swizzled(old(data[..]))
  {
    ghost var target := Swizzled(data[..]);
    ghost var original := data[..];
    var c := 0;
    while c < data.Length / 4
      invariant 0 <= c <= data.Length / 4
      invariant forall i :: 0 <= i < 4 * c ==> data[i] == target[i]
      invariant forall i :: 4 * c <= i < data.Length ==> data[i] == original[i]
    {
      SwizzledChunk(original, c);
      var b := data[4 * c];
      var r := data[4 * c + 2];
      data[4 * c] := r;
      data[4 * c + 2] := b;
      data[4 * c + 3] := 255;
      c := c + 1;
    }
    SwizzledTail(original);
    assert FullChunks(data.Length) == 4 * c;
  }

  datatype Pixel = Pixel(r: u8, g: u8, b: u8, a: u8)

  const Black: Pixel := Pixel(0, 0, 0, 255)
  const White: Pixel := Pixel(255, 255, 255, 255)

  const CursorRows: nat := 19
  const CursorCols: nat := 12

  /** The arrow cursor: 1 is an opaque black outline, 2 an opaque white fill, 0 transparent. */
  const CursorShape: seq<seq<int>> := [
    [1,0,0,0,0,0,0,0,0,0,0,0],
    [1,1,0,0,0,0,0,0,0,0,0,0],
    [1,2,1,0,0,0,0,0,0,0,0,0],
    [1,2,2,1,0,0,0,0,0,0,0,0],
    [1,2,2,2,1,0,0,0,0,0,0,0],
    [1,2,2,2,2,1,0,0,0,0,0,0],
    [1,2,2,2,2,2,1,0,0,0,0,0],
    [1,2,2,2,2,2,2,1,0,0,0,0],
    [1,2,2,2,2,2,2,2,1,0,0,0],
    [1,2,2,2,2,2,2,2,2,1,0,0],
    [1,2,2,2,2,2,1,1,1,1,0,0],
    [1,2,2,1,2,2,1,0,0,0,0,0],
    [1,2,1,0,1,2,2,1,0,0,0,0],
    [1,1,0,0,1,2,2,1,0,0,0,0],
    [1,0,0,0,0,1,2,2,1,0,0,0],
    [0,0,0,0,0,1,2,2,1,0,0,0],
    [0,0,0,0,0,0,1,2,1,0,0,0],
    [0,0,0,0,0,0,0,1,0,0,0,0],
    [0,0,0,0,0,0,0,0,0,0,0,0]
  ]

  /** A shape of `CursorRows` rows of `CursorCols` cells each. */
  predicate ShapeWellFormed(shape: seq<seq<int>>) {
    |shape| == CursorRows && forall row :: 0 <= row < CursorRows ==> |shape[row]| == CursorCols
  }

  /** The built-in arrow has the cursor's dimensions, and every cell is transparent, outline or fill. */
  lemma ShapeIsWellFormed()
    ensures ShapeWellFormed(CursorShape)
    ensures forall r, c :: 0 <= r < CursorRows && 0 <= c < CursorCols ==> 0 <= CursorShape[r][c] <= 2
  {
  }

  /**
   * Pixel (x, y) after stamping `shape` with its tip at (mx, my): outline
   * cells turn black, fill cells white, and every other pixel is kept.
   */
  function StampedPixel(shape: seq<seq<int>>, p: Pixel, x: int, y: int, mx: int, my: int): (q: Pixel)
    ensures q != p ==> 0 <= x - mx < CursorCols && 0 <= y - my < CursorRows
    ensures q == p || q == Black || q == White
    ensures 0 <= y - my < CursorRows && 0 <= x - mx < CursorCols && y - my < |shape| && x - mx < |shape[y - my]| ==>
              && (shape[y - my][x - mx] == 1 ==> q == Black)
              && (shape[y - my][x - mx] == 2 ==> q == White)
              && (shape[y - my][x - mx] != 1 && shape[y - my][x - mx] != 2 ==> q == p)
  {
    var row := y - my;
    var col := x - mx;
    if 0 <= row < CursorRows && 0 <= col < CursorCols && row < |shape| && col < |shape[row]| then
      if shape[row][col] == 1 then Black
      else if shape[row][col] == 2 then White
      else p
    else p
  }

  /** The tip of the arrow is an outline cell: the pixel under the mouse turns black. */
  lemma TipIsBlack(p: Pixel, mx: int, my: int)
    ensures StampedPixel(CursorShape, p, mx, my, mx, my) == Black
  {
    ShapeIsWellFormed();
  }

  /** One pass of the outer loop of `draw_cursor_on_image`: stamps shape row `rowIdx` onto image row `imgMy + rowIdx`. */
  method StampRow(image: array2<Pixel>, shape: seq<seq<int>>, rowIdx: nat, imgMx: int, imgMy: int)
    requires ShapeWellFormed(shape) && rowIdx < CursorRows
    modifies image
    ensures forall x, y :: 0 <= x < image.Length0 && 0 <= y < image.Length1 && y != imgMy + rowIdx ==>
              image[x, y] == old(image[x, y])
    ensures forall x, y :: 0 <= x < image.Length0 && 0 <= y < image.Length1 && y == imgMy + rowIdx ==>
              image[x, y] == StampedPixel(shape, old(image[x, y]), x, y, imgMx, imgMy)
  {
    var w := image.Length0;
    var h := image.Length1;
    var cy := imgMy + rowIdx;
    if cy < 0 || cy >= h {
      return;
    }
    var colIdx := 0;
    while colIdx < CursorCols
      invariant 0 <= colIdx <= CursorCols
      invariant forall x, y :: 0 <= x < w && 0 <= y < h && y != cy ==> image[x, y] == old(image[x, y])
      invariant forall x :: 0 <= x < w ==>
                  image[x, cy] ==
                  if x - imgMx < colIdx then StampedPixel(shape, old(image[x, cy]), x, cy, imgMx, imgMy) else old(image[x, cy])
    {
      var cx := imgMx + colIdx;
      if 0 <= cx < w {
        var pixelType := shape[rowIdx][colIdx];
        assert image[cx, cy] == old(image[cx, cy]);
        if pixelType == 1 {
          image[cx, cy] := Black;
        } else if pixelType == 2 {
          image[cx, cy] := White;
        }
        assert image[cx, cy] == StampedPixel(shape, old(image[cx, cy]), cx, cy, imgMx, imgMy);
      }
      colIdx := colIdx + 1;
    }
    forall x | 0 <= x < w
      ensures image[x, cy] == StampedPixel(shape, old(image[x, cy]), x, cy, imgMx, imgMy)
    {
      if x - imgMx >= CursorCols {
        var p := old(image[x, cy]);
        assert image[x, cy] == p;
        assert StampedPixel(shape, p, x, cy, imgMx, imgMy) == p;
      }
    }
  }

  /**
   * `draw_cursor_on_image`: stamps `shape` (the arrow, `CursorShape`, at the
   * worker's call) with its tip at the mouse position relative to the monitor
   * origin, writing only pixels inside the image.
   */
  method DrawCursorOnImage(image: array2<Pixel>, shape: seq<seq<int>>, mouseX: int, mouseY: int, monitorX: int, monitorY: int)
    requires ShapeWellFormed(shape)
    modifies image
    ensures forall x, y :: 0 <= x < image.Length0 && 0 <= y < image.Length1 ==>
              image[x, y] == StampedPixel(shape, old(image[x, y]), x, y, mouseX - monitorX, mouseY - monitorY)
  {
    var imgMx := mouseX - monitorX;
    var imgMy := mouseY - monitorY;
    var rowIdx := 0;
    while rowIdx < CursorRows
      invariant 0 <= rowIdx <= CursorRows
      invariant forall x, y :: 0 <= x < image.Length0 && 0 <= y < image.Length1 && y - imgMy < rowIdx ==>
                  image[x, y] == StampedPixel(shape, old(image[x, y]), x, y, imgMx, imgMy)
      invariant forall x, y :: 0 <= x < image.Length0 && 0 <= y < image.Length1 && y - imgMy >= rowIdx ==>
                  image[x, y] == old(image[x, y])
    {
      StampRow(image, shape, rowIdx, imgMx, imgMy);
      rowIdx := rowIdx + 1;
    }
    forall x, y | 0 <= x < image.Length0 && 0 <= y < image.Length1
      ensures image[x, y] == StampedPixel(shape, old(image[x, y]), x, y, imgMx, imgMy)
    {
      if y - imgMy >= CursorRows {
        var p := old(image[x, y]);
        assert image[x, y] == p;
        assert StampedPixel(shape, p, x, y, imgMx, imgMy) == p;
      }
    }
  }

  const I32Min: int := -0x8000_0000
  const I32Max: int := 0x7FFF_FFFF
  const U32Max: int := 0xFFFF_FFFF

  function Max0(v: int): nat { if v < 0 then 0 else v }
  function Min(a: int, b: int): int { if a < b then a else b }

  datatype Rect = Rect(x: nat, y: nat, width: nat, height: nat)

  /**
   * The crop rectangle the worker requests for a capture area at (x, y) of
   * the given size, from a monitor image of mw x mh pixels: the area itself
   * (moved onto the image when it starts left of or above it) when it fits,
   * otherwise its size cut to what lies right of and below (x, y), and an
   * error when nothing is left. The requires exclude 32-bit overflow and
   * sign reinterpretation.
   */
  function CropRequest(x: int, y: int, width: nat, height: nat, mw: nat, mh: nat): (r: Result<Rect, string>)
    requires I32Min <= x <= I32Max && I32Min <= y <= I32Max
    requires width <= I32Max && height <= I32Max && mw <= I32Max && mh <= I32Max
    requires Max0(x) + width <= U32Max && Max0(y) + height <= U32Max
    requires I32Min <= mw - x <= I32Max && I32Min <= mh - y <= I32Max
    ensures r.Ok? ==> r.value.x == Max0(x) && r.value.y == Max0(y)
    ensures r.Ok? ==> r.value.width <= width && r.value.height <= height
    ensures Max0(x) + width <= mw && Max0(y) + height <= mh ==> r == Ok(Rect(Max0(x), Max0(y), width, height))
    ensures !(Max0(x) + width <= mw && Max0(y) + height <= mh) ==>
              (r.Err? <==> width == 0 || height == 0 || x >= mw || y >= mh)
    ensures !(Max0(x) + width <= mw && Max0(y) + height <= mh) && r.Ok? ==>
              r.value == Rect(Max0(x), Max0(y), Min(Max0(mw - x), width), Min(Max0(mh - y), height))
  {
    var cropX := Max0(x);
    var cropY := Max0(y);
    if cropX + width <= mw && cropY + height <= mh then
      Ok(Rect(cropX, cropY, width, height))
    else
      var safeW := Min(Max0(mw - x), width);
      var safeH := Min(Max0(mh - y), height);
      if safeW > 0 && safeH > 0 then Ok(Rect(cropX, cropY, safeW, safeH))
      else Err("Capture area completely out of bounds")
  }

  /** For an area that starts on the image, the requested rectangle lies inside the image. */
  lemma CropInsideImage(x: int, y: int, width: nat, height: nat, mw: nat, mh: nat)
    requires 0 <= x <= I32Max && 0 <= y <= I32Max
    requires width <= I32Max && height <= I32Max && mw <= I32Max && mh <= I32Max
    requires x + width <= U32Max && y + height <= U32Max
    requires CropRequest(x, y, width, height, mw, mh).Ok?
    ensures var rect := CropRequest(x, y, width, height, mw, mh).value;
            rect.x + rect.width <= mw && rect.y + rect.height <= mh
  {
  }

  /**
   * An area that starts left of the image and does not fit is cut to the
   * distance from its true left edge, so the rectangle requested from the
   * image's left edge is wider than the image (the crop call clips it).
   */
  lemma CropOvershootLeftOfImage()
    ensures CropRequest(-10, 0, 200, 50, 100, 100) == Ok(Rect(0, 0, 110, 50))
  {
  }
}

=== FILE: capture_engine.dfy ===
/**
 * The Python capture engine: a timer tick grabs the region, composites the
 * cursor, and either merges the grab into the running "same frame" delay or
 * flushes that delay onto the last stored frame and stores the grab. The grab
 * itself, the cursor position and the sprite paste are inputs; the store is a
 * `FrameStorage.Store` of `Image`s.
 */
module CaptureEngine {
  import opened Wrappers
  import opened FrameStorage

  /** A grabbed picture: its size and its channel entries (three per pixel for RGB). */
  datatype Image = Image(width: nat, height: nat, samples: seq<int>)

  /** `capture_region`: left, top, width and height in screen pixels. */
  datatype Region = Region(left: int, top: int, width: int, height: int)

  datatype SessionType = Wayland | X11

  datatype Point = Point(x: int, y: int)

  const MinFps: int := 1
  const MaxFps: int := 60
  const InitialFps: int := 30
  /** Cursor moves of at most this many pixels per axis count as jitter. */
  const JitterPixels: int := 2

  /** ASCII upper case mapped to lower case, everything else kept. */
  function AsciiLower(s: string): (r: string)
    ensures |r| == |s|
    ensures forall i :: 0 <= i < |s| ==> r[i] == if 'A' <= s[i] <= 'Z' then (s[i] as int + 32) as char else s[i]
  {
    if s == [] then []
    else [if 'A' <= s[0] <= 'Z' then (s[0] as int + 32) as char else s[0]] + AsciiLower(s[1..])
  }

  /**
   * `_detect_session`: Wayland when `WAYLAND_DISPLAY` is set to a non-empty
   * value or `XDG_SESSION_TYPE` (empty when unset) reads "wayland" in any case.
   */
  function DetectSession(waylandDisplay: Option<string>, xdgSessionType: Option<string>): (r: SessionType)
    ensures waylandDisplay.Some? && waylandDisplay.value != [] ==> r == Wayland
    ensures xdgSessionType.Some? && AsciiLower(xdgSessionType.value) == "wayland" ==> r == Wayland
    ensures r == Wayland <==> (waylandDisplay.Some? && waylandDisplay.value != []) ||
                              (xdgSessionType.Some? && AsciiLower(xdgSessionType.value) == "wayland")
  {
    var xdg := if xdgSessionType.Some? then AsciiLower(xdgSessionType.value) else "";
    if (waylandDisplay.Some? && waylandDisplay.value != []) || xdg == "wayland" then Wayland else X11
  }

  /** `max(1, min(60, fps))`. */
  function ClampFps(fps: int): (r: int)
    ensures MinFps <= r <= MaxFps
    ensures MinFps <= fps <= MaxFps ==> r == fps
    ensures fps < MinFps ==> r == MinFps
    ensures fps > MaxFps ==> r == MaxFps
  {
    if fps < MinFps then MinFps else if fps > MaxFps then MaxFps else fps
  }

  /** `int(1000 / fps)`: the whole milliseconds of one tick, rounded down. */
  function TickMillis(fps: int): (r: nat)
    requires MinFps <= fps <= MaxFps
    ensures 16 <= r <= 1000
  {
    var r := 1000 / fps;
    TickBounds(fps, r);
    r
  }

  lemma TickBounds(fps: int, r: int)
    requires MinFps <= fps <= MaxFps && r == 1000 / fps
    ensures r * fps <= 1000 < (r + 1) * fps
    ensures 16 <= r <= 1000
  {
    var m := 1000 % fps;
    assert 1000 == r * fps + m && 0 <= m < fps;
    assert (r + 1) * fps <= (r + 1) * 60;
    assert r <= r * fps;
  }

  /** A tick is the largest whole number of milliseconds that `fps` ticks fit into one second. */
  lemma TickIsFloor(fps: int)
    requires MinFps <= fps <= MaxFps
    ensures TickMillis(fps) * fps <= 1000 < (TickMillis(fps) + 1) * fps
  {
    TickBounds(fps, 1000 / fps);
  }

  /** Equal channel entries at equal positions (`np.sum(diff == 0)`). */
  function EqualCount(a: seq<int>, b: seq<int>): (n: nat)
    requires |a| == |b|
    ensures n <= |a|
  {
    if a == [] then 0
    else EqualCount(a[..|a| - 1], b[..|b| - 1]) + (if a[|a| - 1] == b[|b| - 1] then 1 else 0)
  }

  /** Positions whose channel entries differ. */
  function DifferCount(a: seq<int>, b: seq<int>): (n: nat)
    requires |a| == |b|
  {
    if a == [] then 0
    else DifferCount(a[..|a| - 1], b[..|b| - 1]) + (if a[|a| - 1] != b[|b| - 1] then 1 else 0)
  }

  /**
   * `_frames_identical` with threshold 0.99, as the exact comparison
   * `100 * equal >= 99 * total`. Different sizes are never identical; a
   * different channel layout makes the array arithmetic raise, which the source
   * reports as "not identical"; an empty image gives 0/0, not a number, which
   * compares false.
   */
  function FramesIdentical(a: Image, b: Image): (r: bool)
    ensures r ==> a.width == b.width && a.height == b.height
    ensures r ==> |a.samples| == |b.samples| > 0
    ensures a.width == b.width && a.height == b.height && |a.samples| == |b.samples| > 0 ==>
              (r <==> 100 * EqualCount(a.samples, b.samples) >= 99 * |a.samples|)
  {
    if a.width != b.width || a.height != b.height then false
    else if |a.samples| != |b.samples| then false
    else |a.samples| > 0 && 100 * EqualCount(a.samples, b.samples) >= 99 * |a.samples|
  }

  lemma {:induction false} EqualPlusDiffer(a: seq<int>, b: seq<int>)
    requires |a| == |b|
    ensures EqualCount(a, b) + DifferCount(a, b) == |a|
  {
    if a != [] {
      EqualPlusDiffer(a[..|a| - 1], b[..|b| - 1]);
    }
  }

  /** Two frames are identical exactly when they agree in size and layout and at most one channel entry in a hundred differs. */
  lemma FramesIdenticalIffFewDifferences(a: Image, b: Image)
    requires a.width == b.width && a.height == b.height && |a.samples| == |b.samples| > 0
    ensures FramesIdentical(a, b) <==> 100 * DifferCount(a.samples, b.samples) <= |a.samples|
  {
    EqualPlusDiffer(a.samples, b.samples);
  }

  lemma {:induction false} EqualCountSelf(a: seq<int>)
    ensures EqualCount(a, a) == |a|
  {
    if a != [] {
      EqualCountSelf(a[..|a| - 1]);
    }
  }

  /** A non-empty frame is identical to itself. */
  lemma FramesIdenticalReflexive(a: Image)
    requires |a.samples| > 0
    ensures FramesIdentical(a, a)
  {
    EqualCountSelf(a.samples);
  }

  lemma {:induction false} DifferCountOneChange(a: seq<int>, i: nat, v: int)
    requires i < |a|
    ensures DifferCount(a, a[i := v]) <= 1
  {
    var n := |a| - 1;
    if i == n {
      assert a[i := v][..n] == a[..n];
      EqualCountSelf(a[..n]);
      EqualPlusDiffer(a[..n], a[..n]);
    } else {
      assert a[i := v][..n] == a[..n][i := v];
      DifferCountOneChange(a[..n], i, v);
    }
  }

  /** Changing a single channel entry of a frame with at least 100 entries keeps it identical to the original. */
  lemma SingleEntryNoiseIsIdentical(a: Image, i: nat, v: int)
    requires i < |a.samples| && |a.samples| >= 100
    ensures FramesIdentical(a, a.(samples := a.samples[i := v]))
  {
    DifferCountOneChange(a.samples, i, v);
    FramesIdenticalIffFewDifferences(a, a.(samples := a.samples[i := v]));
  }

  /** `cursor_moved`: cursor capture on, both samples present, and a move of more than two pixels on some axis. */
  function CursorMoved(captureCursor: bool, current: Option<Point>, last: Option<Point>): (r: bool)
    ensures r ==> captureCursor && current.Some? && last.Some?
    ensures r <==> captureCursor && current.Some? && last.Some? &&
                   !(-JitterPixels <= current.value.x - last.value.x <= JitterPixels &&
                     -JitterPixels <= current.value.y - last.value.y <= JitterPixels)
  {
    if captureCursor && current.Some? && last.Some? then
      var dx := Abs(current.value.x - last.value.x);
      var dy := Abs(current.value.y - last.value.y);
      dx > JitterPixels || dy > JitterPixels
    else false
  }

  function Abs(x: int): int { if x < 0 then -x else x }

  /** The cursor position relative to the region lies in `[0, width) x [0, height)`. */
  predicate InsideRegion(p: Point, region: Region) {
    0 <= p.x - region.left < region.width && 0 <= p.y - region.top < region.height
  }

  /**
   * `_composite_cursor`: pastes the cursor sprite at the region-relative
   * cursor position, and is the identity when there is no sprite, no cursor
   * position, or the position lies outside the region.
   */
  function CompositeCursor(img: Image, region: Region, pos: Option<Point>, hasSprite: bool,
                           paste: (Image, int, int) -> Image): (r: Image)
    ensures !hasSprite || pos.None? || !InsideRegion(pos.value, region) ==> r == img
    ensures hasSprite && pos.Some? && InsideRegion(pos.value, region) ==>
              r == paste(img, pos.value.x - region.left, pos.value.y - region.top)
  {
    if !hasSprite || pos.None? then img
    else
      var relX := pos.value.x - region.left;
      var relY := pos.value.y - region.top;
      if relX < 0 || relY < 0 || relX >= region.width || relY >= region.height then img
      else paste(img, relX, relY)
  }

  /** Compositing happens at the region's last interior pixel and not one pixel beyond any edge. */
  lemma CompositeAtBoundary(img: Image, region: Region, paste: (Image, int, int) -> Image)
    requires region.width > 0 && region.height > 0
    ensures var last := Point(region.left + region.width - 1, region.top + region.height - 1);
            CompositeCursor(img, region, Some(last), true, paste) == paste(img, region.width - 1, region.height - 1)
    ensures CompositeCursor(img, region, Some(Point(region.left + region.width, region.top)), true, paste) == img
    ensures CompositeCursor(img, region, Some(Point(region.left, region.top + region.height)), true, paste) == img
    ensures CompositeCursor(img, region, Some(Point(region.left - 1, region.top)), true, paste) == img
    ensures CompositeCursor(img, region, Some(Point(region.left, region.top - 1)), true, paste) == img
  {
  }

  /** The store after a flush: the last frame's delay overwritten by the accumulator when there is a previous frame and a positive accumulator. */
  function Flushed(s: seq<Entry<Image>>, last: Option<Image>, acc: nat): (r: seq<Entry<Image>>)
    ensures |r| == |s|
  {
    if last.Some? && acc > 0 then WithLastDelay(s, acc) else s
  }

  /** The delays of a list of stored frames. */
  function DelaysOf(s: seq<Entry<Image>>): (r: seq<nat>)
    ensures |r| == |s|
    ensures forall i :: 0 <= i < |s| ==> r[i] == s[i].delay
  {
    seq(|s|, i requires 0 <= i < |s| => s[i].delay)
  }

  /**
   * The bookkeeping of a run that started with `start` frames stored and has
   * lasted `elapsed` ms: with no previous frame nothing was stored and nothing
   * accumulated; otherwise the last stored frame is the previous frame, the
   * accumulator is positive, and the stored delays plus the accumulator
   * exceed the elapsed time by exactly the last stored delay (which the next
   * flush overwrites).
   */
  ghost predicate AccountOf(s: seq<Entry<Image>>, start: nat, last: Option<Image>, acc: nat, elapsed: nat) {
    && start <= |s|
    && (last.None? ==> |s| == start && elapsed == 0 && acc == 0)
    && (last.Some? ==>
          && start < |s|
          && acc > 0
          && s[|s| - 1].image == last.value
          && TotalDelay(s[start..]) + acc == elapsed + s[|s| - 1].delay)
  }

  /** Storing a new frame after a flush keeps the bookkeeping. */
  lemma AcceptKeepsAccount(s: seq<Entry<Image>>, start: nat, last: Option<Image>, acc: nat, elapsed: nat, e: Entry<Image>)
    requires AccountOf(s, start, last, acc, elapsed) && e.delay > 0
    ensures AccountOf(Flushed(s, last, acc) + [e], start, Some(e.image), e.delay, elapsed + e.delay)
  {
    var f := Flushed(s, last, acc);
    if last.Some? {
      FlushAccounts(s, start, acc);
    }
    assert TotalDelay(f[start..]) == elapsed;
    AppendAccounts(f, start, e);
  }

  /** The corrected stop leaves a run whose delays add up to the elapsed time. */
  lemma FlushedRunLasts(s: seq<Entry<Image>>, start: nat, last: Option<Image>, acc: nat, elapsed: nat)
    requires AccountOf(s, start, last, acc, elapsed)
    ensures TotalDelay(Flushed(s, last, acc)[start..]) == elapsed
  {
    if last.Some? {
      FlushAccounts(s, start, acc);
    } else {
      assert s[start..] == [];
    }
  }

  /** The stop as written leaves a run one last-frame delay longer than the elapsed time. */
  lemma DuplicatedRunOverruns(s: seq<Entry<Image>>, start: nat, last: Image, acc: nat, elapsed: nat)
    requires AccountOf(s, start, Some(last), acc, elapsed)
    ensures TotalDelay((s + [Entry(last, acc)])[start..]) == elapsed + s[|s| - 1].delay
  {
    AppendAccounts(s, start, Entry(last, acc));
  }

  class Engine {
    const frameStorage: Store<Image>
    const sessionType: SessionType
    /** `cursor_capture` and its `default_cursor` exist (X11 sessions only). */
    const hasCursorCapture: bool
    /** Pastes `default_cursor`, alpha-masked, at a region-relative point (a PIL call). */
    const pasteCursor: (Image, int, int) -> Image
    var isRecording: bool
    var captureRegion: Option<Region>
    var fps: int
    var captureCursor: bool
    var lastFrame: Option<Image>
    /** `same_frame_delay`: milliseconds accumulated for the last stored frame. */
    var sameFrameDelay: nat
    var lastCursorPos: Option<Point>
    /** Number of stored frames when recording started. */
    ghost var sessionStart: nat
    /** Milliseconds of successful ticks since recording started. */
    ghost var elapsed: nat

    ghost predicate Valid()
      reads this, frameStorage
    {
      frameStorage.Valid() && MinFps <= fps <= MaxFps
    }

    /**
     * The run-length bookkeeping of a recording (see `AccountOf`) over the
     * current store and engine fields.
     */
    ghost predicate RunAccounted()
      reads this, frameStorage
    {
      Valid() && AccountOf(frameStorage.Contents(), sessionStart, lastFrame, sameFrameDelay, elapsed)
    }

    constructor (frameStorage: Store<Image>, waylandDisplay: Option<string>, xdgSessionType: Option<string>,
                 portalAvailable: bool, pasteCursor: (Image, int, int) -> Image)
      requires frameStorage.Valid()
      ensures Valid() && this.frameStorage == frameStorage && this.pasteCursor == pasteCursor
      ensures sessionType == (if DetectSession(waylandDisplay, xdgSessionType) == Wayland && portalAvailable then Wayland else X11)
      ensures hasCursorCapture == (sessionType == X11)
      ensures !isRecording && captureRegion.None? && fps == InitialFps && !captureCursor
      ensures lastFrame.None? && sameFrameDelay == 0 && lastCursorPos.None?
    {
      this.frameStorage := frameStorage;
      var detected := DetectSession(waylandDisplay, xdgSessionType);
      var session := if detected == Wayland && !portalAvailable then X11 else detected;
      sessionType := session;
      hasCursorCapture := session == X11;
      this.pasteCursor := pasteCursor;
      isRecording := false;
      captureRegion := None;
      fps := InitialFps;
      captureCursor := false;
      lastFrame := None;
      sameFrameDelay := 0;
      lastCursorPos := None;
    }

    /** `set_capture_region`. */
    method SetCaptureRegion(x: int, y: int, width: int, height: int)
      modifies this`captureRegion
      ensures captureRegion == Some(Region(x, y, width, height))
    {
      captureRegion := Some(Region(x, y, width, height));
    }

    /** `set_fps`: the rate is clamped to 1..60, so a tick lasts 16 to 1000 ms. */
    method SetFps(newFps: int)
      requires Valid()
      modifies this`fps
      ensures Valid() && fps == ClampFps(newFps)
    {
      fps := ClampFps(newFps);
    }

    /** The cursor position sampled for movement detection, when cursor capture is on and available. */
    function CursorNow(sample: Option<Point>): Option<Point>
      reads this
    {
      if captureCursor && hasCursorCapture then sample else None
    }

    /**
     * `_grab_screen`: the raw grab (none on failure), with the cursor
     * composited when cursor capture is on. Without a region both grabbers
     * raise (`mss` on a missing monitor, the portal on indexing it), and the
     * grab reports nothing.
     */
    function GrabScreen(raw: Option<Image>, cursorAtGrab: Option<Point>): (r: Option<Image>)
      reads this
      ensures raw.None? || captureRegion.None? ==> r.None?
      ensures !captureCursor && captureRegion.Some? ==> r == raw
      ensures raw.Some? && captureCursor && captureRegion.Some? ==>
                r == Some(CompositeCursor(raw.value, captureRegion.value, cursorAtGrab, hasCursorCapture, pasteCursor))
    {
      if raw.None? || captureRegion.None? then None
      else if !captureCursor then raw
      else Some(CompositeCursor(raw.value, captureRegion.value, cursorAtGrab, hasCursorCapture, pasteCursor))
    }

    /** The grab repeats the previous accepted frame and the cursor did not move. */
    predicate IsRepeat(frame: Image, cursorSample: Option<Point>)
      reads this
    {
      lastFrame.Some? && FramesIdentical(frame, lastFrame.value) && !CursorMoved(captureCursor, CursorNow(cursorSample), lastCursorPos)
    }

    /** `start_recording`: fails and changes nothing without a region; otherwise starts a fresh run. */
    method StartRecording() returns (ok: bool)
      requires Valid()
      modifies this`isRecording, this`lastFrame, this`sameFrameDelay, this`sessionStart, this`elapsed
      ensures Valid()
      ensures ok == captureRegion.Some?
      ensures !ok ==> unchanged(this)
      ensures ok ==> isRecording && lastFrame.None? && sameFrameDelay == 0 && RunAccounted()
    {
      if captureRegion.None? {
        return false;
      }
      isRecording := true;
      lastFrame := None;
      sameFrameDelay := 0;
      sessionStart := |frameStorage.frames|;
      elapsed := 0;
      ok := true;
    }

    /**
     * Overwrites the delay of the last stored frame with the accumulator
     * when there is a previous frame and something accumulated, and then
     * empties the accumulator.
     */
    method Flush()
      requires Valid()
      modifies this`sameFrameDelay, frameStorage
      ensures Valid()
      ensures frameStorage.Contents() == Flushed(old(frameStorage.Contents()), lastFrame, old(sameFrameDelay))
      ensures sameFrameDelay == if lastFrame.Some? then 0 else old(sameFrameDelay)
    {
      if lastFrame.Some? && sameFrameDelay > 0 {
        frameStorage.UpdateLastFrameDelay(sameFrameDelay);
        sameFrameDelay := 0;
      }
    }

    /** Stores `frame` with one tick and restarts the accumulator at one tick. */
    method Append(frame: Image, cursorPos: Option<Point>)
      requires Valid()
      modifies this`lastFrame, this`lastCursorPos, this`sameFrameDelay, this`elapsed, frameStorage
      ensures Valid()
      ensures frameStorage.Contents() == old(frameStorage.Contents()) + [Entry(frame, TickMillis(fps))]
      ensures lastFrame == Some(frame) && lastCursorPos == cursorPos
      ensures sameFrameDelay == TickMillis(fps) && elapsed == old(elapsed) + TickMillis(fps)
    {
      var delayIncrement := TickMillis(fps);
      var frameNum := frameStorage.AddFrame(frame, delayIncrement);
      lastFrame := Some(frame);
      lastCursorPos := cursorPos;
      elapsed := elapsed + delayIncrement;
      sameFrameDelay := delayIncrement;
    }

    /**
     * The accepting branch of a tick: flushes the accumulator (see `Flush`),
     * then stores `frame` with one tick and restarts the accumulator at one
     * tick, keeping the run's bookkeeping.
     */
    method Accept(frame: Image, cursorPos: Option<Point>)
      requires Valid()
      modifies this`lastFrame, this`lastCursorPos, this`sameFrameDelay, this`elapsed, frameStorage
      ensures Valid()
      ensures frameStorage.Contents() ==
              Flushed(old(frameStorage.Contents()), old(lastFrame), old(sameFrameDelay)) + [Entry(frame, TickMillis(fps))]
      ensures lastFrame == Some(frame) && lastCursorPos == cursorPos
      ensures sameFrameDelay == TickMillis(fps) && elapsed == old(elapsed) + TickMillis(fps)
      ensures old(RunAccounted()) ==> RunAccounted()
    {
      ghost var before := frameStorage.Contents();
      ghost var last0, acc0, elapsed0 := lastFrame, sameFrameDelay, elapsed;
      Flush();
      Append(frame, cursorPos);
      if AccountOf(before, sessionStart, last0, acc0, elapsed0) {
        var e := Entry(frame, TickMillis(fps));
        AcceptKeepsAccount(before, sessionStart, last0, acc0, elapsed0, e);
        assert frameStorage.Contents() == Flushed(before, last0, acc0) + [e];
      }
    }

    /**
     * `_capture_frame`, one timer tick. A failed grab changes nothing. A repeat
     * of the previous frame with a still cursor adds one tick to the
     * accumulator. Anything else is accepted (see `Accept`).
     */
    method CaptureFrame(raw: Option<Image>, cursorAtGrab: Option<Point>, cursorSample: Option<Point>)
      requires Valid()
      modifies this`lastFrame, this`lastCursorPos, this`sameFrameDelay, this`elapsed, frameStorage
      ensures Valid()
      ensures old(GrabScreen(raw, cursorAtGrab)).None? ==>
                && frameStorage.Contents() == old(frameStorage.Contents())
                && lastFrame == old(lastFrame) && lastCursorPos == old(lastCursorPos)
                && sameFrameDelay == old(sameFrameDelay) && elapsed == old(elapsed)
      ensures var frame := old(GrabScreen(raw, cursorAtGrab));
              frame.Some? && old(IsRepeat(frame.value, cursorSample)) ==>
                && frameStorage.Contents() == old(frameStorage.Contents())
                && lastFrame == old(lastFrame) && lastCursorPos == old(lastCursorPos)
                && sameFrameDelay == old(sameFrameDelay) + TickMillis(fps)
                && elapsed == old(elapsed) + TickMillis(fps)
      ensures var frame := old(GrabScreen(raw, cursorAtGrab));
              frame.Some? && !old(IsRepeat(frame.value, cursorSample)) ==>
                && frameStorage.Contents() ==
                   Flushed(old(frameStorage.Contents()), old(lastFrame), old(sameFrameDelay)) + [Entry(frame.value, TickMillis(fps))]
                && lastFrame == frame && lastCursorPos == old(CursorNow(cursorSample))
                && sameFrameDelay == TickMillis(fps)
                && elapsed == old(elapsed) + TickMillis(fps)
      ensures old(RunAccounted()) ==> RunAccounted()
    {
      var frame := GrabScreen(raw, cursorAtGrab);
      if frame.None? {
        return;
      }
      var delayIncrement := TickMillis(fps);
      var currentCursorPos: Option<Point> := None;
      if captureCursor && hasCursorCapture {
        currentCursorPos := cursorSample;
      }
      var cursorMoved := CursorMoved(captureCursor, currentCursorPos, lastCursorPos);
      if lastFrame.Some? && FramesIdentical(frame.value, lastFrame.value) && !cursorMoved {
        sameFrameDelay := sameFrameDelay + delayIncrement;
        elapsed := elapsed + delayIncrement;
        return;
      }
      Accept(frame.value, currentCursorPos);
    }

    /**
     * `stop_recording`, corrected: the accumulated delay overwrites the delay
     * of the last stored frame, so the stored run lasts exactly as long as the
     * ticks that produced it.
     */
    method StopRecording()
      requires Valid()
      modifies this`isRecording, this`sameFrameDelay, frameStorage
      ensures Valid() && !isRecording
      ensures frameStorage.Contents() == Flushed(old(frameStorage.Contents()), lastFrame, old(sameFrameDelay))
      ensures sameFrameDelay == if lastFrame.Some? then 0 else old(sameFrameDelay)
      ensures old(RunAccounted()) ==>
                sessionStart <= |frameStorage.frames| && TotalDelay(frameStorage.Contents()[sessionStart..]) == elapsed
    {
      ghost var before := frameStorage.Contents();
      ghost var account := AccountOf(before, sessionStart, lastFrame, sameFrameDelay, elapsed);
      if account {
        FlushedRunLasts(before, sessionStart, lastFrame, sameFrameDelay, elapsed);
      }
      isRecording := false;
      Flush();
    }

    /**
     * `stop_recording` as written: a second copy of the last frame is
     * appended with the accumulator as its delay, so the stored run lasts one
     * last-frame delay longer than the ticks that produced it.
     */
    method StopRecordingAsWritten()
      requires Valid()
      modifies this`isRecording, this`sameFrameDelay, frameStorage
      ensures Valid() && !isRecording
      ensures frameStorage.Contents() ==
              if old(sameFrameDelay) > 0 && lastFrame.Some?
              then old(frameStorage.Contents()) + [Entry(lastFrame.value, old(sameFrameDelay))]
              else old(frameStorage.Contents())
      ensures sameFrameDelay == if lastFrame.Some? then 0 else old(sameFrameDelay)
      ensures old(RunAccounted()) && lastFrame.Some? ==>
                && sessionStart <= |frameStorage.frames|
                && TotalDelay(frameStorage.Contents()[sessionStart..]) ==
                   elapsed + old(frameStorage.Contents()[|frameStorage.Contents()| - 1].delay)
    {
      ghost var before := frameStorage.Contents();
      ghost var account := AccountOf(before, sessionStart, lastFrame, sameFrameDelay, elapsed);
      if account && lastFrame.Some? {
        DuplicatedRunOverruns(before, sessionStart, lastFrame.value, sameFrameDelay, elapsed);
      }
      isRecording := false;
      if sameFrameDelay > 0 && lastFrame.Some? {
        var frameNum := frameStorage.AddFrame(lastFrame.value, sameFrameDelay);
        sameFrameDelay := 0;
      }
    }

    /** `capture_single_frame`: without a region or with a failed grab nothing happens; otherwise one frame of one tick is stored. */
    method CaptureSingleFrame(raw: Option<Image>, cursorAtGrab: Option<Point>) returns (ok: bool)
      requires Valid()
      modifies frameStorage
      ensures Valid()
      ensures ok == (captureRegion.Some? && GrabScreen(raw, cursorAtGrab).Some?)
      ensures ok ==> frameStorage.Contents() == old(frameStorage.Contents()) + [Entry(GrabScreen(raw, cursorAtGrab).value, TickMillis(fps))]
      ensures !ok ==> frameStorage.Contents() == old(frameStorage.Contents())
    {
      if captureRegion.None? {
        return false;
      }
      var frame := GrabScreen(raw, cursorAtGrab);
      if frame.Some? {
        var delay := TickMillis(fps);
        var frameNum := frameStorage.AddFrame(frame.value, delay);
        return true;
      }
      return false;
    }
  }

  /** Overwriting the last delay with the accumulator leaves the run's total equal to the elapsed ticks. */
  lemma FlushAccounts(s: seq<Entry<Image>>, k: nat, acc: nat)
    requires k < |s|
    ensures WithLastDelay(s, acc)[k..] == WithLastDelay(s[k..], acc)
    ensures TotalDelay(WithLastDelay(s[k..], acc)) + s[|s| - 1].delay == TotalDelay(s[k..]) + acc
  {
    var r := WithLastDelay(s, acc);
    assert r[k..][..|r| - k - 1] == s[k..][..|s| - k - 1];
    TotalDelayWithLast(s[k..], acc);
  }

  /** Appending a frame extends the run by that frame. */
  lemma AppendAccounts(s: seq<Entry<Image>>, k: nat, e: Entry<Image>)
    requires k <= |s|
    ensures (s + [e])[k..] == s[k..] + [e]
    ensures TotalDelay((s + [e])[k..]) == TotalDelay(s[k..]) + e.delay
  {
    assert (s + [e])[k..] == s[k..] + [e];
    TotalDelayAppend(s[k..], e);
  }

  /** The two grabs of the example recording: a black and a white one-pixel picture. */
  const GrabA: Image := Image(1, 1, [0, 0, 0])
  const GrabB: Image := Image(1, 1, [255, 255, 255])

  /** An engine on a fresh RAM store, recording a one-pixel region at 10 fps without the cursor. */
  method StartTrace() returns (engine: Engine)
    ensures fresh(engine) && fresh(engine.frameStorage) && engine.Valid()
    ensures engine.fps == 10 && !engine.captureCursor && engine.captureRegion.Some?
    ensures engine.frameStorage.Contents() == [] && engine.lastFrame.None?
  {
    var store := new Store<Image>(Ram);
    engine := new Engine(store, None, None, false, (img: Image, x: int, y: int) => img);
    engine.SetCaptureRegion(0, 0, 1, 1);
    engine.SetFps(10);
    var started := engine.StartRecording();
  }

  /** Feeds A to `StartTrace`. */
  method RecordOneA() returns (engine: Engine)
    ensures fresh(engine) && fresh(engine.frameStorage) && engine.Valid()
    ensures engine.fps == 10 && !engine.captureCursor && engine.captureRegion.Some?
    ensures engine.frameStorage.Contents() == [Entry(GrabA, 100)]
    ensures engine.lastFrame == Some(GrabA) && engine.sameFrameDelay == 100
  {
    engine := StartTrace();
    assert TickMillis(engine.fps) == 100;
    assert engine.GrabScreen(Some(GrabA), None) == Some(GrabA) && !engine.IsRepeat(GrabA, None);
    engine.CaptureFrame(Some(GrabA), None, None);
    assert engine.frameStorage.Contents() == [Entry(GrabA, 100)];
  }

  /** Continues `RecordOneA` with A, A, which only grow the accumulator. */
  method RecordThreeA() returns (engine: Engine)
    ensures fresh(engine) && fresh(engine.frameStorage) && engine.Valid()
    ensures engine.fps == 10 && !engine.captureCursor && engine.captureRegion.Some?
    ensures engine.frameStorage.Contents() == [Entry(GrabA, 100)]
    ensures engine.lastFrame == Some(GrabA) && engine.sameFrameDelay == 300
  {
    engine := RecordOneA();
    FramesIdenticalReflexive(GrabA);
    assert TickMillis(engine.fps) == 100;
    assert engine.GrabScreen(Some(GrabA), None) == Some(GrabA) && engine.IsRepeat(GrabA, None);
    engine.CaptureFrame(Some(GrabA), None, None);
    assert engine.fps == 10 && !engine.captureCursor;
    assert engine.GrabScreen(Some(GrabA), None) == Some(GrabA) && engine.IsRepeat(GrabA, None);
    engine.CaptureFrame(Some(GrabA), None, None);
  }

  /** Continues `RecordThreeA` with B, which flushes 300 ms onto A. */
  method RecordThreeAOneB() returns (engine: Engine)
    ensures fresh(engine) && fresh(engine.frameStorage) && engine.Valid()
    ensures engine.fps == 10 && !engine.captureCursor && engine.captureRegion.Some?
    ensures engine.frameStorage.Contents() == [Entry(GrabA, 300), Entry(GrabB, 100)]
    ensures engine.lastFrame == Some(GrabB) && engine.sameFrameDelay == 100
  {
    engine := RecordThreeA();
    assert !FramesIdentical(GrabB, GrabA);
    assert TickMillis(engine.fps) == 100;
    assert engine.GrabScreen(Some(GrabB), None) == Some(GrabB) && !engine.IsRepeat(GrabB, None);
    engine.CaptureFrame(Some(GrabB), None, None);
    assert engine.frameStorage.Contents() == [Entry(GrabA, 300), Entry(GrabB, 100)];
  }

  /** Continues `RecordThreeAOneB` with B. */
  method RecordThreeATwoB() returns (engine: Engine)
    ensures fresh(engine) && fresh(engine.frameStorage) && engine.Valid()
    ensures engine.frameStorage.Contents() == [Entry(GrabA, 300), Entry(GrabB, 100)]
    ensures engine.lastFrame == Some(GrabB) && engine.sameFrameDelay == 200
  {
    engine := RecordThreeAOneB();
    FramesIdenticalReflexive(GrabB);
    assert TickMillis(engine.fps) == 100;
    assert engine.GrabScreen(Some(GrabB), None) == Some(GrabB) && engine.IsRepeat(GrabB, None);
    engine.CaptureFrame(Some(GrabB), None, None);
  }

  /**
   * A 10 fps recording (100 ms ticks) of the grabs A, A, A, B, B, stopped
   * with `stop_recording` as written: 500 ms of capture play back for 600 ms.
   */
  method StopTraceAsWritten() returns (delays: seq<nat>)
    ensures delays == [300, 100, 200]
  {
    var engine := RecordThreeATwoB();
    engine.StopRecordingAsWritten();
    var all := engine.frameStorage.GetAllFrames();
    delays := DelaysOf(all);
  }

  /** The same recording with the corrected stop: each distinct grab keeps its captured duration. */
  method StopTrace() returns (delays: seq<nat>)
    ensures delays == [300, 200]
  {
    var engine := RecordThreeATwoB();
    engine.StopRecording();
    var all := engine.frameStorage.GetAllFrames();
    delays := DelaysOf(all);
  }
}

=== FILE: editor_window.dfy ===
/**
 * The batch operations of the Python frame editor: the index lists it hands
 * to the frame store for "delete to beginning", "delete to end" and "delete
 * even-numbered frames", and the delay dialog with its apply-to-all loop. Each
 * confirmation dialog is a boolean input; the delay spin box yields a value
 * within its range.
 */
module EditorWindow {
  import opened Sequences
  import opened FrameStorage

  /** Range of the delay spin box, in milliseconds. */
  const MinDelay: nat := 10
  const MaxDelay: nat := 10000

  /** Python `range(lo, hi)`: the increasing numbers from `lo` up to but excluding `hi`. */
  function Range(lo: nat, hi: nat): (r: seq<nat>)
    ensures |r| == if lo <= hi then hi - lo else 0
    ensures forall i :: 0 <= i < |r| ==> r[i] == lo + i
    ensures forall k :: k in r <==> lo <= k < hi
    decreases hi - lo
  {
    if lo < hi then [lo] + Range(lo + 1, hi) else []
  }

  /** `[i for i in range(n) if i % 2 == 0]`: the even numbers below `n`, increasing. */
  function EvenIndices(n: nat): (r: seq<nat>)
    ensures forall k :: k in r <==> 0 <= k < n && k % 2 == 0
    ensures forall i, j :: 0 <= i < j < |r| ==> r[i] < r[j]
    ensures forall i :: 0 <= i < |r| ==> r[i] < n
  {
    if n == 0 then []
    else EvenIndices(n - 1) + (if (n - 1) % 2 == 0 then [n - 1] else [])
  }

  /** `s` with every delay set to `d`, payloads kept. */
  function WithAllDelays<Img>(s: seq<Entry<Img>>, d: nat): (r: seq<Entry<Img>>)
    ensures |r| == |s|
    ensures forall i :: 0 <= i < |s| ==> r[i] == Entry(s[i].image, d)
  {
    seq(|s|, i requires 0 <= i < |s| => Entry(s[i].image, d))
  }

  class EditorWindow<Img> {
    const frameStorage: Store<Img>

    constructor (frameStorage: Store<Img>)
      ensures this.frameStorage == frameStorage
    {
      this.frameStorage := frameStorage;
    }

    /** `delete_frame`: deletes one frame once confirmed. */
    method DeleteFrame(frameNum: nat, confirmed: bool)
      requires frameStorage.Valid()
      modifies frameStorage
      ensures frameStorage.Valid()
      ensures frameStorage.Contents() ==
        if confirmed then DeleteAt(old(frameStorage.Contents()), frameNum) else old(frameStorage.Contents())
    {
      if confirmed {
        var deleted := frameStorage.DeleteFrame(frameNum);
      }
    }

    /** `delete_to_beginning`: once confirmed, frames `0..frameNum` go and the later ones remain, in order. */
    method DeleteToBeginning(frameNum: nat, confirmed: bool)
      requires frameStorage.Valid()
      modifies frameStorage
      ensures frameStorage.Valid()
      ensures !confirmed ==> frameStorage.Contents() == old(frameStorage.Contents())
      ensures confirmed ==>
        frameStorage.Contents() ==
        (if frameNum < |old(frameStorage.Contents())| then old(frameStorage.Contents())[frameNum + 1..] else [])
    {
      if confirmed {
        var toDelete := Range(0, frameNum + 1);
        frameStorage.DeleteFrames(toDelete);
        RemoveUpTo(old(frameStorage.Contents()), Elems(toDelete), frameNum);
      }
    }

    /** `delete_to_end`: once confirmed, frames `frameNum..count-1` go, so exactly the first `frameNum` remain. */
    method DeleteToEnd(frameNum: nat, confirmed: bool)
      requires frameStorage.Valid()
      modifies frameStorage
      ensures frameStorage.Valid()
      ensures !confirmed ==> frameStorage.Contents() == old(frameStorage.Contents())
      ensures confirmed ==>
        frameStorage.Contents() ==
        (if frameNum < |old(frameStorage.Contents())| then old(frameStorage.Contents())[..frameNum] else old(frameStorage.Contents()))
    {
      var totalFrames := frameStorage.GetFrameCount();
      if confirmed {
        var toDelete := Range(frameNum, totalFrames);
        frameStorage.DeleteFrames(toDelete);
        RemoveFrom(old(frameStorage.Contents()), Elems(toDelete), frameNum);
      }
    }

    /** `delete_even_frames`: once confirmed, exactly the formerly odd-numbered frames remain, in order. */
    method DeleteEvenFrames(confirmed: bool)
      requires frameStorage.Valid()
      modifies frameStorage
      ensures frameStorage.Valid()
      ensures !confirmed ==> frameStorage.Contents() == old(frameStorage.Contents())
      ensures confirmed ==> |frameStorage.Contents()| == |old(frameStorage.Contents())| / 2
      ensures confirmed ==> forall k :: 0 <= k < |frameStorage.Contents()| ==>
        frameStorage.Contents()[k] == old(frameStorage.Contents())[2 * k + 1]
    {
      var totalFrames := frameStorage.GetFrameCount();
      var evenFrames := EvenIndices(totalFrames);
      if confirmed {
        frameStorage.DeleteFrames(evenFrames);
        RemoveEvens(old(frameStorage.Contents()), Elems(evenFrames));
      }
    }

    /**
     * `show_delay_dialog`: once accepted, the entered delay goes to every frame
     * (apply to all) or to frame `frameNum` only.
     */
    method ShowDelayDialog(frameNum: nat, accepted: bool, newDelay: nat, applyToAll: bool)
      requires frameStorage.Valid()
      requires MinDelay <= newDelay <= MaxDelay
      modifies frameStorage
      ensures frameStorage.Valid()
      ensures !accepted ==> frameStorage.Contents() == old(frameStorage.Contents())
      ensures accepted && applyToAll ==> frameStorage.Contents() == WithAllDelays(old(frameStorage.Contents()), newDelay)
      ensures accepted && !applyToAll ==> frameStorage.Contents() == WithDelayAt(old(frameStorage.Contents()), frameNum, newDelay)
    {
      if accepted {
        if applyToAll {
          var count := frameStorage.GetFrameCount();
          for i := 0 to count
            invariant frameStorage.Valid()
            invariant |frameStorage.Contents()| == count
            invariant forall j :: 0 <= j < count ==>
              frameStorage.Contents()[j] ==
              Entry(old(frameStorage.Contents())[j].image, if j < i then newDelay else old(frameStorage.Contents())[j].delay)
          {
            frameStorage.SetDelay(i, newDelay);
          }
        } else {
          frameStorage.SetDelay(frameNum, newDelay);
        }
      }
    }
  }
}

=== FILE: frame_storage.dfy ===
/**
 * The frame store of the Python recorder: an ordered list of metadata records
 * `{frame_num, delay, path}` whose payloads live either in numbered image files
 * inside a per-session directory ("disk" mode) or in a parallel in-memory list
 * ("ram" mode). Payloads are opaque values of type `Img`; the directory is a
 * map from file number to the payload saved under that number.
 */
module FrameStorage {
  import opened Wrappers
  import opened Sequences

  datatype StorageMode = Disk | Ram

  /** The number `N` in a file name `frame_N.png` (zero-padded to five digits, so distinct numbers name distinct files). */
  type FileNumber = nat

  /** One metadata record; `path` is set in disk mode only. */
  datatype FrameRecord = FrameRecord(frameNum: nat, delay: nat, path: Option<FileNumber>)

  /** What a reader sees of one stored frame: its payload and its delay in milliseconds. */
  datatype Entry<Img> = Entry(image: Img, delay: nat)

  /** Delay reported for a frame number past the end. */
  const DefaultDelay: nat := 100

  /** `s` with the delay of position `k` replaced by `d`; unchanged when `k` is out of range. */
  function WithDelayAt<Img>(s: seq<Entry<Img>>, k: nat, d: nat): (r: seq<Entry<Img>>)
    ensures |r| == |s|
    ensures forall i :: 0 <= i < |s| ==> r[i].image == s[i].image
    ensures forall i :: 0 <= i < |s| ==> r[i].delay == (if i == k then d else s[i].delay)
  {
    if k < |s| then s[k := s[k].(delay := d)] else s
  }

  /** `s` with the delay of its last frame replaced by `d`; unchanged when `s` is empty. */
  function WithLastDelay<Img>(s: seq<Entry<Img>>, d: nat): (r: seq<Entry<Img>>)
    ensures |r| == |s|
    ensures |s| > 0 ==> r[..|s| - 1] == s[..|s| - 1] && r[|s| - 1] == Entry(s[|s| - 1].image, d)
    ensures |s| == 0 ==> r == s
  {
    if |s| > 0 then WithDelayAt(s, |s| - 1, d) else s
  }

  /** Total playback time of a frame list: the sum of its delays. */
  function TotalDelay<Img>(s: seq<Entry<Img>>): nat
  {
    if s == [] then 0 else TotalDelay(s[..|s| - 1]) + s[|s| - 1].delay
  }

  /** Appending a frame adds its delay to the total. */
  lemma TotalDelayAppend<Img>(s: seq<Entry<Img>>, e: Entry<Img>)
    ensures TotalDelay(s + [e]) == TotalDelay(s) + e.delay
  {
    assert (s + [e])[..|s|] == s;
  }

  /** Overwriting the last delay with `d` changes the total by `d` minus the old last delay. */
  lemma TotalDelayWithLast<Img>(s: seq<Entry<Img>>, d: nat)
    requires |s| > 0
    ensures TotalDelay(WithLastDelay(s, d)) + s[|s| - 1].delay == TotalDelay(s) + d
  {
    var r := WithLastDelay(s, d);
    assert r[..|r| - 1] == s[..|s| - 1];
  }

  class Store<Img> {
    const mode: StorageMode
    var frames: seq<FrameRecord>
    /** `ram_frames`: the payloads in RAM mode, parallel to `frames`. */
    var ramFrames: seq<Img>
    /** The session directory: file number to the payload saved in that file. */
    var files: map<FileNumber, Img>
    /** Next unused file number (see the Findings of the README). */
    var nextFile: FileNumber

    /** Every record is numbered by its position and its payload can be found. */
    ghost predicate WellFormed()
      reads this
    {
      && (forall i :: 0 <= i < |frames| ==> frames[i].frameNum == i)
      && match mode
         case Ram =>
           && |ramFrames| == |frames|
           && (forall i :: 0 <= i < |frames| ==> frames[i].path == None)
           && files == map[]
         case Disk =>
           && ramFrames == []
           && (forall i :: 0 <= i < |frames| ==> frames[i].path.Some? && frames[i].path.value in files)
    }

    /** In disk mode no two records share a file, and no file number at or past `nextFile` is in use. */
    ghost predicate Valid()
      reads this
    {
      && WellFormed()
      && (mode == Disk ==>
            && (forall i, j :: 0 <= i < j < |frames| ==> frames[i].path != frames[j].path)
            && (forall f :: f in files ==> f < nextFile))
    }

    ghost function Payload(i: nat): Img
      reads this
      requires WellFormed() && i < |frames|
    {
      match mode
      case Ram => ramFrames[i]
      case Disk => files[frames[i].path.value]
    }

    /** The stored frames in playback order, whichever backing holds them. */
    ghost function Contents(): (c: seq<Entry<Img>>)
      reads this
      requires WellFormed()
      ensures |c| == |frames|
      ensures forall i :: 0 <= i < |frames| ==> c[i] == Entry(Payload(i), frames[i].delay)
    {
      seq(|frames|, i requires 0 <= i < |frames| && WellFormed() reads this => Entry(Payload(i), frames[i].delay))
    }

    constructor (mode: StorageMode)
      ensures Valid() && this.mode == mode
      ensures Contents() == [] && files == map[] && ramFrames == [] && nextFile == 0
    {
      this.mode := mode;
      frames := [];
      ramFrames := [];
      files := map[];
      nextFile := 0;
    }

    /**
     * `add_frame`: stores `image` with `delay` and returns its frame number.
     * Every frame already stored keeps its payload and delay.
     */
    method AddFrame(image: Img, delay: nat) returns (frameNum: nat)
      requires Valid()
      modifies this
      ensures Valid()
      ensures frameNum == |old(frames)|
      ensures Contents() == old(Contents()) + [Entry(image, delay)]
      ensures frames == old(frames) + [FrameRecord(frameNum, delay, if mode == Disk then Some(old(nextFile)) else None)]
      ensures mode == Disk ==> files == old(files)[old(nextFile) := image] && nextFile == old(nextFile) + 1
    {
      ghost var before := Contents();
      frameNum := |frames|;
      var path: Option<FileNumber> := None;
      if mode == Disk {
        files := files[nextFile := image];
        path := Some(nextFile);
        nextFile := nextFile + 1;
      } else {
        ramFrames := ramFrames + [image];
      }
      frames := frames + [FrameRecord(frameNum, delay, path)];
      assert forall i :: 0 <= i < |before| ==> Contents()[i] == before[i];
    }

    /**
     * `add_frame` as written: the file number is the current count, which after
     * a deletion can be the number of a file that a surviving frame still uses.
     */
    method AddFrameAsWritten(image: Img, delay: nat) returns (frameNum: nat)
      requires Valid()
      modifies this
      ensures WellFormed()
      ensures frameNum == |old(frames)|
      ensures frames == old(frames) + [FrameRecord(frameNum, delay, if mode == Disk then Some(frameNum) else None)]
      ensures files == if mode == Disk then old(files)[frameNum := image] else old(files)
      ensures ramFrames == if mode == Ram then old(ramFrames) + [image] else old(ramFrames)
      ensures nextFile == old(nextFile)
    {
      frameNum := |frames|;
      var path: Option<FileNumber> := None;
      if mode == Disk {
        files := files[frameNum := image];
        path := Some(frameNum);
      } else {
        ramFrames := ramFrames + [image];
      }
      frames := frames + [FrameRecord(frameNum, delay, path)];
    }

    /** `get_frame`: the payload of frame `frameNum`, or nothing past the end. */
    method GetFrame(frameNum: nat) returns (r: Option<Img>)
      requires WellFormed()
      ensures frameNum < |Contents()| ==> r == Some(Contents()[frameNum].image)
      ensures frameNum >= |Contents()| ==> r == None
    {
      if frameNum >= |frames| {
        return None;
      }
      if mode == Disk {
        r := Some(files[frames[frameNum].path.value]);
      } else {
        r := Some(ramFrames[frameNum]);
      }
    }

    /** `get_frame_count`. */
    method GetFrameCount() returns (n: nat)
      requires WellFormed()
      ensures n == |Contents()|
    {
      n := |frames|;
    }

    /** `get_delay`: the delay of frame `frameNum`, or 100 past the end. */
    method GetDelay(frameNum: nat) returns (d: nat)
      requires WellFormed()
      ensures frameNum < |Contents()| ==> d == Contents()[frameNum].delay
      ensures frameNum >= |Contents()| ==> d == DefaultDelay
    {
      if frameNum < |frames| {
        d := frames[frameNum].delay;
      } else {
        d := DefaultDelay;
      }
    }

    /** `set_delay`: changes the delay of frame `frameNum` only; no effect past the end. */
    method SetDelay(frameNum: nat, delay: nat)
      requires Valid()
      modifies this
      ensures Valid()
      ensures Contents() == WithDelayAt(old(Contents()), frameNum, delay)
      ensures files == old(files) && ramFrames == old(ramFrames) && nextFile == old(nextFile)
    {
      if frameNum < |frames| {
        frames := frames[frameNum := frames[frameNum].(delay := delay)];
      }
    }

    /** `update_last_frame_delay`: overwrites (does not add to) the delay of the last frame; no effect when empty. */
    method UpdateLastFrameDelay(delay: nat)
      requires Valid()
      modifies this
      ensures Valid()
      ensures Contents() == WithLastDelay(old(Contents()), delay)
      ensures files == old(files) && ramFrames == old(ramFrames) && nextFile == old(nextFile)
    {
      if |frames| > 0 {
        frames := frames[|frames| - 1 := frames[|frames| - 1].(delay := delay)];
      }
    }

    /**
     * `delete_frame`: removes frame `frameNum` and its payload (file or RAM
     * entry) and renumbers the rest; reports false and changes nothing past the end.
     */
    method DeleteFrame(frameNum: nat) returns (ok: bool)
      requires Valid()
      modifies this
      ensures Valid()
      ensures ok == (frameNum < |old(Contents())|)
      ensures Contents() == DeleteAt(old(Contents()), frameNum)
      ensures ok ==> forall j :: 0 <= j < |frames| ==> frames[j].path == old(frames)[if j < frameNum then j else j + 1].path
      ensures ok && mode == Disk ==> files == old(files) - {old(frames)[frameNum].path.value}
      ensures nextFile == old(nextFile)
    {
      if frameNum >= |frames| {
        return false;
      }
      ghost var before := Contents();
      ghost var oldFrames := frames;
      ghost var oldFiles := files;
      ghost var oldRam := ramFrames;
      if mode == Disk {
        var p := frames[frameNum].path.value;
        if p in files {
          files := files - {p};
        }
      } else {
        ramFrames := ramFrames[..frameNum] + ramFrames[frameNum + 1..];
      }
      frames := frames[..frameNum] + frames[frameNum + 1..];
      ghost var rest := frames;
      Renumber();
      forall j | 0 <= j < |frames|
        ensures var k := if j < frameNum then j else j + 1;
          && frames[j].frameNum == j
          && frames[j].delay == oldFrames[k].delay
          && frames[j].path == oldFrames[k].path
          && (mode == Ram ==> ramFrames[j] == oldRam[k])
          && (mode == Disk ==> frames[j].path.value in files && files[frames[j].path.value] == oldFiles[oldFrames[k].path.value])
      {
        var k := if j < frameNum then j else j + 1;
        assert frames[j].path == rest[j].path == oldFrames[k].path;
        if mode == Disk {
          assert oldFrames[k].path != oldFrames[frameNum].path;
        }
      }
      assert WellFormed();
      assert forall j :: 0 <= j < |frames| ==> Contents()[j] == DeleteAt(before, frameNum)[j];
      ok := true;
    }

    /** The renumbering loop of `delete_frame`: every record takes its position as its number. */
    method Renumber()
      modifies this`frames
      ensures |frames| == |old(frames)|
      ensures forall j :: 0 <= j < |frames| ==> frames[j] == old(frames)[j].(frameNum := j)
    {
      var i := 0;
      while i < |frames|
        invariant 0 <= i <= |frames| == |old(frames)|
        invariant forall j :: 0 <= j < |frames| ==> frames[j] == if j < i then old(frames)[j].(frameNum := j) else old(frames)[j]
      {
        frames := frames[i := frames[i].(frameNum := i)];
        i := i + 1;
      }
    }

    /**
     * `delete_frames`: deletes the listed frame numbers from the largest to the
     * smallest. For a list without duplicates this removes exactly that set of
     * positions from the original order; numbers past the end are ignored.
     */
    method DeleteFrames(frameNums: seq<nat>)
      requires Valid()
      modifies this
      ensures Valid()
      ensures Contents() == DeleteEach(old(Contents()), SortDesc(frameNums))
      ensures Distinct(frameNums) ==> Contents() == RemoveIndices(old(Contents()), Elems(frameNums))
    {
      var order := SortDesc(frameNums);
      ghost var start := Contents();
      for j := 0 to |order|
        invariant Valid()
        invariant Contents() == DeleteEach(start, order[..j])
      {
        var deleted := DeleteFrame(order[j]);
        assert order[..j + 1][..j] == order[..j];
      }
      assert order[..|order|] == order;
      if Distinct(frameNums) {
        SortDescOfDistinct(frameNums);
        DeleteDescendingIsRemoveSet(start, order);
      }
    }

    /** `get_all_frames`: every (payload, delay) pair in frame order. */
    method GetAllFrames() returns (all: seq<Entry<Img>>)
      requires WellFormed()
      ensures all == Contents()
    {
      all := [];
      var i := 0;
      while i < |frames|
        invariant 0 <= i <= |frames|
        invariant all == Contents()[..i]
      {
        var image := GetFrame(i);
        all := all + [Entry(image.value, frames[i].delay)];
        i := i + 1;
      }
    }

    /**
     * `cleanup`: removes the session directory (disk) or the in-memory payloads
     * (RAM) and empties the list. The resulting state does not depend on the
     * old one, so a second call changes nothing.
     */
    method Cleanup()
      requires Valid()
      modifies this
      ensures Valid()
      ensures Contents() == [] && files == map[] && ramFrames == [] && nextFile == old(nextFile)
      ensures old(frames) == [] && old(files) == map[] ==> unchanged(this)
    {
      if mode == Disk {
        files := map[];
      }
      frames := [];
      if mode == Ram {
        ramFrames := [];
      }
    }
  }

  /**
   * A disk store that saved the payloads 10, 20 and 30 and then deleted
   * frame 0: the survivors keep the files numbered 1 and 2.
   */
  method ThreeSavedFirstDeleted() returns (store: Store<int>)
    ensures fresh(store) && store.Valid() && store.mode == Disk
    ensures store.frames == [FrameRecord(0, 100, Some(1)), FrameRecord(1, 100, Some(2))]
    ensures store.Contents() == [Entry(20, 100), Entry(30, 100)]
  {
    store := new Store<int>(Disk);
    var n0 := store.AddFrame(10, 100);
    var n1 := store.AddFrame(20, 100);
    var n2 := store.AddFrame(30, 100);
    var ok := store.DeleteFrame(0);
  }

  /**
   * The disk-mode naming of `add_frame` as written: the next frame is saved
   * under the count (2), the file number of the surviving frame 1, whose
   * payload silently changes from 30 to 40.
   */
  method PathCollisionAsWritten() returns (before: Option<int>, after: Option<int>)
    ensures before == Some(30)
    ensures after == Some(40)
  {
    var store := ThreeSavedFirstDeleted();
    before := store.GetFrame(1);
    var n3 := store.AddFrameAsWritten(40, 100);
    after := store.GetFrame(1);
  }

  /**
   * The same sequence with file numbers taken from a counter that deletions
   * never lower: the new frame gets a fresh file and frame 1 keeps its payload.
   */
  method PathsStayDistinct() returns (before: Option<int>, after: Option<int>)
    ensures before == Some(30)
    ensures after == Some(30)
  {
    var store := ThreeSavedFirstDeleted();
    before := store.GetFrame(1);
    var n3 := store.AddFrame(40, 100);
    after := store.GetFrame(1);
  }
}

=== FILE: recording.dfy ===
/**
 * The Rust recording session: frames carry their capture time relative to the
 * session start, and a frame's delay is the gap to the next frame's time (the
 * last frame plays for a fixed 100 ms). Durations are whole milliseconds.
 */
module Recording {
  import opened Sequences

  /** A `std::time::Duration`, in milliseconds. */
  type Duration = nat

  /** Delay of the last frame, which has no successor to measure against. */
  const LastFrameDelay: Duration := 100

  datatype Frame<Img> = Frame(image: Img, timestamp: Duration)

  /** Frame `i` is not later than its successor, so the gap between them is a valid `Duration`. */
  predicate GapDefined<Img>(s: seq<Frame<Img>>, i: nat) {
    i + 1 < |s| ==> s[i].timestamp <= s[i + 1].timestamp
  }

  /** Timestamps never decrease along the session. */
  predicate Ordered<Img>(s: seq<Frame<Img>>) {
    forall j, k :: 0 <= j <= k < |s| ==> s[j].timestamp <= s[k].timestamp
  }

  /**
   * `get_frame_delay`: the gap to the next frame, or 100 ms for the last
   * frame and past the end. A decreasing pair would make the subtraction
   * panic, hence the precondition.
   */
  function FrameDelay<Img>(s: seq<Frame<Img>>, i: nat): (d: Duration)
    requires GapDefined(s, i)
    ensures i + 1 < |s| ==> s[i].timestamp + d == s[i + 1].timestamp
    ensures i + 1 >= |s| ==> d == LastFrameDelay
  {
    if i + 1 < |s| then s[i + 1].timestamp - s[i].timestamp else LastFrameDelay
  }

  /**
   * The new time of a frame after the one whose delay is set: moved later by
   * the growth of the gap, or earlier by its shrinkage, saturating at zero and
   * never before the base frame.
   */
  function Shift(t: Duration, base: Duration, oldNext: Duration, newNext: Duration): (r: Duration)
    ensures newNext > oldNext ==> r == t + (newNext - oldNext)
    ensures newNext <= oldNext ==> r >= base
    ensures newNext <= oldNext && t >= base + (oldNext - newNext) ==> r == t - (oldNext - newNext)
    ensures newNext <= oldNext && t < base + (oldNext - newNext) ==> r == base
  {
    if newNext > oldNext then t + (newNext - oldNext)
    else
      var lowered := if t >= oldNext - newNext then t - (oldNext - newNext) else 0;
      if lowered < base then base else lowered
  }

  /** The frames after `set_delay(index, delay)`. */
  function Retimed<Img>(s: seq<Frame<Img>>, index: nat, delay: Duration): (r: seq<Frame<Img>>)
    ensures |r| == |s|
    ensures forall j :: 0 <= j < |s| ==> r[j].image == s[j].image
    ensures forall j :: 0 <= j <= index && j < |s| ==> r[j] == s[j]
    ensures index + 1 >= |s| ==> r == s
  {
    if index + 1 < |s| then
      var base := s[index].timestamp;
      var oldNext := s[index + 1].timestamp;
      var newNext := base + delay;
      seq(|s|, j requires 0 <= j < |s| =>
        if j <= index then s[j] else s[j].(timestamp := Shift(s[j].timestamp, base, oldNext, newNext)))
    else s
  }

  /** After `set_delay(i, d)` the delay of frame `i` is exactly `d`, whatever the order of the other frames. */
  lemma SetDelayHitsTarget<Img>(s: seq<Frame<Img>>, i: nat, d: Duration)
    requires i + 1 < |s|
    ensures GapDefined(Retimed(s, i, d), i)
    ensures FrameDelay(Retimed(s, i, d), i) == d
  {
  }

  /** With ordered timestamps, `set_delay` keeps the order and no later frame moves before frame `i`. */
  lemma SetDelayKeepsOrder<Img>(s: seq<Frame<Img>>, i: nat, d: Duration)
    requires Ordered(s)
    ensures Ordered(Retimed(s, i, d))
    ensures forall j :: i < j < |s| ==> Retimed(s, i, d)[j].timestamp >= s[i].timestamp
  {
    var r := Retimed(s, i, d);
    if i + 1 < |s| {
      var base := s[i].timestamp;
      var oldNext := s[i + 1].timestamp;
      var newNext := base + d;
      forall j | i < j < |s|
        ensures r[j].timestamp >= base
        ensures newNext <= oldNext ==> r[j].timestamp == s[j].timestamp - (oldNext - newNext)
      {
        assert s[j].timestamp >= oldNext;
      }
      forall j, k | 0 <= j <= k < |s|
        ensures r[j].timestamp <= r[k].timestamp
      {
        if j > i {
          assert s[j].timestamp <= s[k].timestamp;
        }
      }
    }
  }

  /** Shortening a delay clamps every later frame at the base frame's time, even when the frames are out of order. */
  lemma SetDelayShorterNeverBelowBase<Img>(s: seq<Frame<Img>>, i: nat, d: Duration)
    requires i + 1 < |s| && s[i].timestamp + d <= s[i + 1].timestamp
    ensures forall j :: i < j < |s| ==> Retimed(s, i, d)[j].timestamp >= s[i].timestamp
  {
  }

  /** With ordered timestamps, `set_delay(i, d)` keeps the delay of every frame other than `i`. */
  lemma SetDelayKeepsOtherGaps<Img>(s: seq<Frame<Img>>, i: nat, d: Duration, j: nat)
    requires Ordered(s) && j != i
    ensures GapDefined(Retimed(s, i, d), j)
    ensures FrameDelay(Retimed(s, i, d), j) == FrameDelay(s, j)
  {
    SetDelayKeepsOrder(s, i, d);
    var r := Retimed(s, i, d);
    if i + 1 < |s| && j + 1 < |s| && j > i {
      var oldNext := s[i + 1].timestamp;
      var newNext := s[i].timestamp + d;
      assert s[j].timestamp >= oldNext && s[j + 1].timestamp >= oldNext;
    }
  }

  /** Setting a frame's delay to its current delay changes nothing when the timestamps are ordered. */
  lemma SetDelaySameDelayIsIdentity<Img>(s: seq<Frame<Img>>, i: nat)
    requires Ordered(s) && i + 1 < |s|
    ensures Retimed(s, i, FrameDelay(s, i)) == s
  {
    var r := Retimed(s, i, FrameDelay(s, i));
    forall j | i < j < |s|
      ensures r[j] == s[j]
    {
      assert s[i].timestamp <= s[j].timestamp;
    }
  }

  class RecordingSession<Img> {
    var frames: seq<Frame<Img>>

    /** `new`: no frames. */
    constructor ()
      ensures frames == []
    {
      frames := [];
    }

    /** `add_frame`: appends the image stamped with the session clock reading `elapsed`. */
    method AddFrame(image: Img, elapsed: Duration)
      modifies this
      ensures frames == old(frames) + [Frame(image, elapsed)]
      ensures |frames| == |old(frames)| + 1
      ensures Ordered(old(frames)) && (forall j :: 0 <= j < |old(frames)| ==> old(frames)[j].timestamp <= elapsed) ==>
                Ordered(frames)
    {
      frames := frames + [Frame(image, elapsed)];
    }

    /** `frame_count`. */
    function FrameCount(): (n: nat)
      reads this
      ensures n == |frames|
    {
      |frames|
    }

    /** `clear`: drops every frame (the clock restart is outside the model). */
    method Clear()
      modifies this
      ensures frames == []
    {
      frames := [];
    }

    /** `remove_frame`: removes frame `index` when it exists, keeping the others in order. */
    method RemoveFrame(index: nat)
      modifies this
      ensures frames == DeleteAt(old(frames), index)
      ensures index >= |old(frames)| ==> frames == old(frames)
      ensures Ordered(old(frames)) ==> Ordered(frames)
    {
      if index < |frames| {
        frames := frames[..index] + frames[index + 1..];
      }
    }

    /** `get_frame_delay`: the delay of frame `index` in the session as it stands. */
    function GetFrameDelay(index: nat): (d: Duration)
      reads this
      requires GapDefined(frames, index)
      ensures d == FrameDelay(frames, index)
      ensures index + 1 < |frames| ==> frames[index].timestamp + d == frames[index + 1].timestamp
      ensures index + 1 >= |frames| ==> d == LastFrameDelay
    {
      FrameDelay(frames, index)
    }

    /**
     * `set_delay`: for a frame with a successor, every later timestamp moves
     * by the change of the gap; when the gap shrinks, each later timestamp is
     * lowered with saturation and clamped at the frame's own time.
     */
    method SetDelay(index: nat, delay: Duration)
      modifies this
      ensures frames == Retimed(old(frames), index, delay)
    {
      if index < |frames| && index + 1 < |frames| {
        var oldNextTs := frames[index + 1].timestamp;
        var baseTs := frames[index].timestamp;
        var newNextTs := baseTs + delay;
        ghost var target := Retimed(frames, index, delay);
        var j := index + 1;
        if newNextTs > oldNextTs {
          var shift := newNextTs - oldNextTs;
          while j < |frames|
            invariant index + 1 <= j <= |frames| == |target|
            invariant forall k :: 0 <= k < j ==> frames[k] == target[k]
            invariant forall k :: j <= k < |frames| ==> frames[k] == old(frames)[k]
          {
            frames := frames[j := frames[j].(timestamp := frames[j].timestamp + shift)];
            j := j + 1;
          }
        } else {
          var shift := oldNextTs - newNextTs;
          while j < |frames|
            invariant index + 1 <= j <= |frames| == |target|
            invariant forall k :: 0 <= k < j ==> frames[k] == target[k]
            invariant forall k :: j <= k < |frames| ==> frames[k] == old(frames)[k]
          {
            var t := if frames[j].timestamp >= shift then frames[j].timestamp - shift else 0;
            if t < baseTs {
              t := baseTs;
            }
            frames := frames[j := frames[j].(timestamp := t)];
            j := j + 1;
          }
        }
      }
    }

    /** The per-frame delays `save_to_file` hands to the GIF encoder: the same as `get_frame_delay` for every frame. */
    method SaveDelays() returns (delays: seq<Duration>)
      requires forall i: nat :: GapDefined(frames, i)
      ensures |delays| == |frames|
      ensures forall i :: 0 <= i < |frames| ==> delays[i] == FrameDelay(frames, i)
    {
      delays := [];
      var i := 0;
      while i < |frames|
        invariant 0 <= i <= |frames| && |delays| == i
        invariant forall k :: 0 <= k < i ==> delays[k] == FrameDelay(frames, k)
      {
        assert GapDefined(frames, i);
        var delayDuration: Duration := if i + 1 < |frames| then frames[i + 1].timestamp - frames[i].timestamp else LastFrameDelay;
        delays := delays + [delayDuration];
        i := i + 1;
      }
    }
  }
}

=== FILE: sequences.dfy ===
/**
 * Index arithmetic on ordered lists shared by the frame store and the editors:
 * removing one position (`del xs[k]`, `Vec::remove`), removing a set of
 * positions, and deleting a list of positions one after the other in
 * descending order.
 */
module Sequences {

  /** `s` without its element at `k`; unchanged when `k` is out of range. */
  function DeleteAt<T>(s: seq<T>, k: nat): (r: seq<T>)
    ensures k < |s| ==> |r| == |s| - 1
    ensures k >= |s| ==> r == s
    ensures forall i :: 0 <= i < |r| ==> r[i] == (if i < k then s[i] else s[i + 1])
  {
    if k < |s| then s[..k] + s[k + 1..] else s
  }

  /** The elements of `s` whose position is not in `del`, in their original order. */
  function RemoveIndices<T>(s: seq<T>, del: set<nat>): (r: seq<T>)
    ensures |r| <= |s|
    decreases |s|
  {
    if s == [] then []
    else
      var n := |s| - 1;
      RemoveIndices(s[..n], del) + (if n in del then [] else [s[n]])
  }

  /** The positions listed in `ks`, as a set. */
  function Elems(ks: seq<nat>): (r: set<nat>)
    ensures forall k :: k in r <==> k in ks
  {
    set k | k in ks
  }

  /** No position is listed twice. */
  predicate Distinct(ks: seq<nat>) {
    forall i, j :: 0 <= i < j < |ks| ==> ks[i] != ks[j]
  }

  /** Every position is larger than the ones listed after it. */
  predicate StrictlyDescending(ks: seq<nat>) {
    forall i, j :: 0 <= i < j < |ks| ==> ks[i] > ks[j]
  }

  /** Positions listed from largest to smallest, duplicates kept. */
  predicate Descending(ks: seq<nat>) {
    forall i, j :: 0 <= i < j < |ks| ==> ks[i] >= ks[j]
  }

  /** Inserts `x` into a descending list (one step of `sorted(..., reverse=True)`). */
  function InsertDesc(x: nat, s: seq<nat>): (r: seq<nat>)
    ensures multiset(r) == multiset(s) + multiset{x}
    ensures |r| == |s| + 1
  {
    if s == [] || x >= s[0] then [x] + s
    else
      assert s == [s[0]] + s[1..];
      [s[0]] + InsertDesc(x, s[1..])
  }

  /** `sorted(ks, reverse=True)`: the same positions from largest to smallest. */
  function SortDesc(ks: seq<nat>): (r: seq<nat>)
    ensures multiset(r) == multiset(ks)
    ensures |r| == |ks|
  {
    if ks == [] then []
    else
      assert ks == [ks[0]] + ks[1..];
      InsertDesc(ks[0], SortDesc(ks[1..]))
  }

  /** Deletes the positions of `ks` one after the other, each in the list left by the previous ones. */
  function DeleteEach<T>(s: seq<T>, ks: seq<nat>): (r: seq<T>)
    ensures |r| <= |s|
    decreases |ks|
  {
    if ks == [] then s
    else DeleteAt(DeleteEach(s, ks[..|ks| - 1]), ks[|ks| - 1])
  }

  lemma {:induction false} InsertDescKeepsOrder(x: nat, s: seq<nat>)
    requires Descending(s)
    ensures Descending(InsertDesc(x, s))
  {
    if s == [] || x >= s[0] {
    } else {
      InsertDescKeepsOrder(x, s[1..]);
      var r := InsertDesc(x, s);
      var t := InsertDesc(x, s[1..]);
      assert r == [s[0]] + t;
      forall j | 0 <= j < |t| ensures s[0] >= t[j] {
        assert t[j] in multiset(t);
        assert t[j] in multiset(s[1..]) + multiset{x};
        if t[j] != x {
          assert t[j] in multiset(s[1..]);
          var m :| 0 <= m < |s[1..]| && s[1..][m] == t[j];
          assert s[m + 1] == t[j];
        }
      }
    }
  }

  /** The descending sort really is descending. */
  lemma {:induction false} SortDescIsDescending(ks: seq<nat>)
    ensures Descending(SortDesc(ks))
  {
    if ks != [] {
      SortDescIsDescending(ks[1..]);
      InsertDescKeepsOrder(ks[0], SortDesc(ks[1..]));
    }
  }

  lemma DistinctFromMultiset(ks: seq<nat>, r: seq<nat>)
    requires Distinct(ks) && multiset(r) == multiset(ks)
    ensures Distinct(r)
  {
    forall i, j | 0 <= i < j < |r| ensures r[i] != r[j] {
      if r[i] == r[j] {
        var x := r[i];
        assert multiset(r)[x] >= 2 by {
          assert r == r[..i] + [x] + r[i + 1..j] + [x] + r[j + 1..];
          assert multiset(r) == multiset(r[..i]) + multiset{x} + multiset(r[i + 1..j]) + multiset{x} + multiset(r[j + 1..]);
        }
        DistinctCountsOnce(ks, x);
        assert false;
      }
    }
  }

  lemma {:induction false} DistinctCountsOnce(ks: seq<nat>, x: nat)
    requires Distinct(ks)
    ensures multiset(ks)[x] <= 1
  {
    if ks != [] {
      assert Distinct(ks[1..]);
      DistinctCountsOnce(ks[1..], x);
      assert ks == [ks[0]] + ks[1..];
      if ks[0] == x {
        assert x !in ks[1..];
      }
    }
  }

  /** Sorting a list without duplicates in reverse order yields a strictly descending list of the same positions. */
  lemma SortDescOfDistinct(ks: seq<nat>)
    requires Distinct(ks)
    ensures StrictlyDescending(SortDesc(ks))
    ensures Elems(SortDesc(ks)) == Elems(ks)
  {
    var r := SortDesc(ks);
    SortDescIsDescending(ks);
    DistinctFromMultiset(ks, r);
    forall k ensures k in r <==> k in ks {
      assert k in r <==> k in multiset(r);
      assert k in ks <==> k in multiset(ks);
    }
  }

  /** Removing positions none of which lies in range changes nothing. */
  lemma {:induction false} RemoveNothingInRange<T>(s: seq<T>, del: set<nat>)
    requires forall d :: d in del ==> d >= |s|
    ensures RemoveIndices(s, del) == s
    decreases |s|
  {
    if s != [] {
      var n := |s| - 1;
      RemoveNothingInRange(s[..n], del);
      assert s[..n] + [s[n]] == s;
    }
  }

  /** Removing only positions after `k` keeps the first `k + 1` elements in place. */
  lemma {:induction false} RemoveKeepsPrefix<T>(s: seq<T>, del: set<nat>, k: nat)
    requires forall d :: d in del ==> d > k
    requires k < |s|
    ensures k < |RemoveIndices(s, del)|
    ensures forall i :: 0 <= i <= k ==> RemoveIndices(s, del)[i] == s[i]
    decreases |s|
  {
    var n := |s| - 1;
    if k == n {
      RemoveNothingInRange(s, del);
    } else {
      RemoveKeepsPrefix(s[..n], del, k);
    }
  }

  lemma DeleteAtConcat<T>(a: seq<T>, b: seq<T>, k: nat)
    requires k < |a|
    ensures DeleteAt(a + b, k) == DeleteAt(a, k) + b
  {
    assert (a + b)[..k] == a[..k];
    assert (a + b)[k + 1..] == a[k + 1..] + b;
  }

  /** Deleting position `k` after positions all larger than `k` removes `k` from the original list. */
  lemma {:induction false} DeleteAfterRemove<T>(s: seq<T>, del: set<nat>, k: nat)
    requires forall d :: d in del ==> d > k
    ensures DeleteAt(RemoveIndices(s, del), k) == RemoveIndices(s, del + {k})
    decreases |s|
  {
    if s == [] {
    } else {
      var n := |s| - 1;
      var p := s[..n];
      if k < n {
        DeleteAfterRemove(p, del, k);
        RemoveKeepsPrefix(p, del, k);
        var a := RemoveIndices(p, del);
        var b: seq<T> := if n in del then [] else [s[n]];
        assert RemoveIndices(s, del) == a + b;
        assert RemoveIndices(s, del + {k}) == RemoveIndices(p, del + {k}) + b;
        DeleteAtConcat(a, b, k);
      } else if k == n {
        RemoveNothingInRange(p, del);
        RemoveNothingInRange(p, del + {k});
        assert RemoveIndices(s, del) == p + [s[n]];
      } else {
        RemoveNothingInRange(s, del);
        RemoveNothingInRange(s, del + {k});
      }
    }
  }

  /**
   * Deleting strictly descending positions one at a time removes exactly
   * that set of positions from the original list; out-of-range positions are
   * ignored.
   */
  lemma {:induction false} DeleteDescendingIsRemoveSet<T>(s: seq<T>, ks: seq<nat>)
    requires StrictlyDescending(ks)
    ensures DeleteEach(s, ks) == RemoveIndices(s, Elems(ks))
    decreases |ks|
  {
    if ks == [] {
      assert Elems(ks) == {};
      RemoveNothingInRange(s, {});
    } else {
      var init := ks[..|ks| - 1];
      var last := ks[|ks| - 1];
      DeleteDescendingIsRemoveSet(s, init);
      forall d | d in Elems(init) ensures d > last {
        var i :| 0 <= i < |init| && init[i] == d;
      }
      DeleteAfterRemove(s, Elems(init), last);
      assert Elems(ks) == Elems(init) + {last} by {
        assert ks == init + [last];
      }
    }
  }

  /** Removing every position up to and including `n` keeps the elements after `n`. */
  lemma {:induction false} RemoveUpTo<T>(s: seq<T>, del: set<nat>, n: nat)
    requires forall i :: 0 <= i < |s| ==> (i in del <==> i <= n)
    ensures RemoveIndices(s, del) == if n < |s| then s[n + 1..] else []
    decreases |s|
  {
    if s != [] {
      var m := |s| - 1;
      RemoveUpTo(s[..m], del, n);
      if m > n {
        assert s[..m][n + 1..] + [s[m]] == s[n + 1..];
      }
    }
  }

  /** Removing every position from `n` on keeps the first `n` elements. */
  lemma {:induction false} RemoveFrom<T>(s: seq<T>, del: set<nat>, n: nat)
    requires forall i :: 0 <= i < |s| ==> (i in del <==> i >= n)
    ensures RemoveIndices(s, del) == if n < |s| then s[..n] else s
    decreases |s|
  {
    if s != [] {
      var m := |s| - 1;
      RemoveFrom(s[..m], del, n);
      if m < n {
        assert s[..m] + [s[m]] == s;
      } else if m == n {
        assert s[..m] == s[..n];
      } else {
        assert s[..m][..n] == s[..n];
      }
    }
  }

  /** Removing the even positions keeps exactly the odd-indexed elements, in order. */
  lemma {:induction false} RemoveEvens<T>(s: seq<T>, del: set<nat>)
    requires forall i :: 0 <= i < |s| ==> (i in del <==> i % 2 == 0)
    ensures |RemoveIndices(s, del)| == |s| / 2
    ensures forall k :: 0 <= k < |s| / 2 ==> RemoveIndices(s, del)[k] == s[2 * k + 1]
    decreases |s|
  {
    if s != [] {
      var m := |s| - 1;
      RemoveEvens(s[..m], del);
      if m % 2 == 0 {
        assert m in del;
      } else {
        assert m !in del;
        OddStep(s, RemoveIndices(s[..m], del), m / 2);
      }
    }
  }

  /** One step of `RemoveEvens`: an odd last position is kept and lands at index `q`. */
  lemma OddStep<T>(s: seq<T>, r: seq<T>, q: nat)
    requires |s| == 2 * q + 2 && |r| == q
    requires forall k :: 0 <= k < q ==> r[k] == s[2 * k + 1]
    ensures |r + [s[2 * q + 1]]| == |s| / 2
    ensures forall k :: 0 <= k < |s| / 2 ==> (r + [s[2 * q + 1]])[k] == s[2 * k + 1]
  {
    assert |s| / 2 == q + 1;
  }
}

=== FILE: text.dfy ===
/**
 * The text handling of the Rust front end: the `char::is_numeric` filter on
 * input fields, `str::parse::<u64>` and the decimal rendering of integers.
 */
module Text {
  import opened Wrappers

  /** 2^64 - 1, the largest `u64`. */
  const U64Max: nat := 0xFFFF_FFFF_FFFF_FFFF

  predicate IsAsciiDigit(c: char) {
    '0' <= c <= '9'
  }

  /**
   * `char::is_numeric` (Unicode categories Nd, Nl and No), on the ASCII
   * digits and these non-ASCII ranges: superscripts two, three and one, the
   * vulgar fractions one quarter to three quarters, the Arabic-Indic digits,
   * the Roman numerals (without the reversed C letters U+2183 and U+2184)
   * and the fullwidth digits.
   */
  predicate IsNumeric(c: char) {
    || IsAsciiDigit(c)
    || c == '²' || c == '³' || c == '¹'
    || '¼' <= c <= '¾'
    || '٠' <= c <= '٩'
    || 'Ⅰ' <= c <= 'ↂ' || 'ↅ' <= c <= 'ↈ'
    || '０' <= c <= '９'
  }

  /** `s.chars().all(|c| c.is_numeric())`; true of the empty string. */
  predicate AllNumeric(s: string) {
    forall i :: 0 <= i < |s| ==> IsNumeric(s[i])
  }

  predicate AllAsciiDigits(s: string) {
    forall i :: 0 <= i < |s| ==> IsAsciiDigit(s[i])
  }

  function DigitValue(c: char): (d: nat)
    requires IsAsciiDigit(c)
    ensures d < 10
  {
    c as int - '0' as int
  }

  function DigitChar(d: nat): (c: char)
    requires d < 10
    ensures IsAsciiDigit(c) && DigitValue(c) == d
  {
    ('0' as int + d) as char
  }

  /** The value of a string of decimal digits, most significant first. */
  function DigitsValue(s: string): nat
    requires AllAsciiDigits(s)
  {
    if s == [] then 0 else 10 * DigitsValue(s[..|s| - 1]) + DigitValue(s[|s| - 1])
  }

  /**
   * `s.parse::<u64>()`: an optional leading `+` followed by at least one
   * ASCII digit, with a value that fits in 64 bits; anything else is an error.
   */
  function ParseU64(s: string): (r: Option<nat>)
    ensures r.Some? ==> r.value <= U64Max
    ensures r.Some? ==> s != [] && (s[0] == '+' || IsAsciiDigit(s[0]))
    ensures AllAsciiDigits(s) && s != [] && DigitsValue(s) <= U64Max ==> r == Some(DigitsValue(s))
    ensures var d := if |s| > 0 && s[0] == '+' then s[1..] else s;
            r.Some? <==> (d != [] && AllAsciiDigits(d) && DigitsValue(d) <= U64Max)
    ensures var d := if |s| > 0 && s[0] == '+' then s[1..] else s;
            r.Some? ==> AllAsciiDigits(d) && r.value == DigitsValue(d)
  {
    var digits := if |s| > 0 && s[0] == '+' then s[1..] else s;
    if digits == [] || !AllAsciiDigits(digits) then None
    else
      var v := DigitsValue(digits);
      if v <= U64Max then Some(v) else None
  }

  /** `n.to_string()`: the decimal digits of `n` without leading zeros. */
  function NatToString(n: nat): (s: string)
    ensures s != [] && AllAsciiDigits(s)
    ensures |s| > 1 ==> s[0] != '0'
  {
    if n < 10 then [DigitChar(n)] else NatToString(n / 10) + [DigitChar(n % 10)]
  }

  lemma {:induction false} NatToStringValue(n: nat)
    ensures DigitsValue(NatToString(n)) == n
  {
    if n >= 10 {
      NatToStringValue(n / 10);
      var s := NatToString(n);
      assert s[..|s| - 1] == NatToString(n / 10);
    }
  }

  /** Rendering a `u64` and parsing it back gives the same number. */
  lemma ParseRendered(n: nat)
    requires n <= U64Max
    ensures ParseU64(NatToString(n)) == Some(n)
  {
    NatToStringValue(n);
  }

  /** A rendered number passes the numeric-input filter. */
  lemma RenderedIsNumeric(n: nat)
    ensures AllNumeric(NatToString(n))
  {
  }

  /** Parsing a string that passes the numeric filter can still fail: a non-ASCII digit is numeric but not parseable. */
  lemma NumericButUnparseable()
    ensures AllNumeric("٣") && ParseU64("٣").None?
  {
    assert !IsAsciiDigit('٣');
  }
}

=== FILE: ui_editor.dfy ===
/**
 * The Rust editor screen's state: the session being edited, one thumbnail per
 * frame, the selected frame and the delay text field.
 */
module EditorUi {
  import opened Wrappers
  import opened Sequences
  import opened Text
  import opened Recording

  datatype Message =
    | Back
    | Save
    | DeleteFrame
    | FrameSelected(index: nat)
    | DelayInputChanged(value: string)
    | SetDelay

  /** The selection after deleting frame `index` from a strip that now holds `remaining` frames. */
  function SelectionAfterDelete(index: nat, remaining: nat): (r: Option<nat>)
    ensures r.Some? ==> r.value < remaining
    ensures remaining == 0 <==> r.None?
    ensures index < remaining ==> r == Some(index)
  {
    if remaining == 0 then None
    else if index >= remaining then Some(remaining - 1)
    else Some(index)
  }

  class Editor<Img> {
    const session: RecordingSession<Img>
    /** One thumbnail per frame, made from the frame's picture. */
    var thumbnails: seq<Img>
    var selectedFrame: Option<nat>
    var delayInput: string

    /** The thumbnail strip mirrors the session's frames. */
    ghost predicate Valid()
      reads this, session
    {
      && |thumbnails| == |session.frames|
      && forall i :: 0 <= i < |thumbnails| ==> thumbnails[i] == session.frames[i].image
    }

    /** `new`: one thumbnail per frame, nothing selected, delay text "100". */
    constructor (session: RecordingSession<Img>)
      ensures Valid() && this.session == session
      ensures selectedFrame.None? && delayInput == "100"
    {
      this.session := session;
      thumbnails := seq(|session.frames|, i requires 0 <= i < |session.frames| reads session => session.frames[i].image);
      selectedFrame := None;
      delayInput := "100";
    }

    /**
     * `update`. Selecting a frame selects it and shows its delay in
     * milliseconds; deleting removes the selected frame from the session and
     * the strip and moves the selection back onto the strip; delay text is
     * accepted only when every character is numeric; setting the delay applies
     * the parsed text to the selected frame. Back and Save are handled
     * elsewhere.
     */
    method Update(msg: Message)
      requires Valid()
      requires msg.FrameSelected? ==> GapDefined(session.frames, msg.index)
      requires msg.DeleteFrame? && selectedFrame.Some? ==> selectedFrame.value < |thumbnails|
      modifies this, session
      ensures Valid()
      ensures msg.FrameSelected? ==>
                && selectedFrame == Some(msg.index)
                && delayInput == NatToString(FrameDelay(old(session.frames), msg.index))
                && session.frames == old(session.frames)
      ensures msg.DeleteFrame? && old(selectedFrame).None? ==>
                session.frames == old(session.frames) && selectedFrame.None? && delayInput == old(delayInput)
      ensures msg.DeleteFrame? && old(selectedFrame).Some? ==>
                && session.frames == DeleteAt(old(session.frames), old(selectedFrame).value)
                && |thumbnails| == |old(thumbnails)| - 1
                && selectedFrame == SelectionAfterDelete(old(selectedFrame).value, |thumbnails|)
                && delayInput == old(delayInput)
      ensures msg.DelayInputChanged? ==>
                && delayInput == (if AllNumeric(msg.value) then msg.value else old(delayInput))
                && session.frames == old(session.frames) && selectedFrame == old(selectedFrame)
      ensures msg.SetDelay? ==>
                && session.frames ==
                   (if old(selectedFrame).Some? && ParseU64(old(delayInput)).Some?
                    then Retimed(old(session.frames), old(selectedFrame).value, ParseU64(old(delayInput)).value)
                    else old(session.frames))
                && selectedFrame == old(selectedFrame) && delayInput == old(delayInput)
      ensures msg.Back? || msg.Save? ==> unchanged(this) && unchanged(session)
    {
      match msg
      case FrameSelected(index) =>
        selectedFrame := Some(index);
        var ms := session.GetFrameDelay(index);
        delayInput := NatToString(ms);
      case DeleteFrame =>
        if selectedFrame.Some? {
          var index := selectedFrame.value;
          session.RemoveFrame(index);
          thumbnails := thumbnails[..index] + thumbnails[index + 1..];
          if |thumbnails| == 0 {
            selectedFrame := None;
          } else if index >= |thumbnails| {
            selectedFrame := Some(|thumbnails| - 1);
          }
        }
      case DelayInputChanged(val) =>
        if AllNumeric(val) {
          delayInput := val;
        }
      case SetDelay =>
        if selectedFrame.Some? {
          var parsed := ParseU64(delayInput);
          if parsed.Some? {
            session.SetDelay(selectedFrame.value, parsed.value);
          }
        }
      case _ =>
    }
  }

  /**
   * Selecting a frame and pressing Set without editing the text leaves the
   * session as it was, when its timestamps are ordered whole milliseconds.
   * The shown delay must fit a `u64` for the text to parse back; for the last
   * frame, Set changes nothing whatever the delay.
   */
  lemma SelectThenSetIsIdentity<Img>(s: seq<Frame<Img>>, i: nat)
    requires Ordered(s) && FrameDelay(s, i) <= U64Max
    ensures ParseU64(NatToString(FrameDelay(s, i))) == Some(FrameDelay(s, i))
    ensures Retimed(s, i, ParseU64(NatToString(FrameDelay(s, i))).value) == s
  {
    ParseRendered(FrameDelay(s, i));
    if i + 1 < |s| {
      SetDelaySameDelayIsIdentity(s, i);
    }
  }
}

=== FILE: ui_recorder.dfy ===
/** The Rust recorder screen's state: the recording flag and the frame-rate field. */
module RecorderUi {
  import opened Wrappers
  import opened Text

  datatype Message =
    | RecordPressed
    | StopPressed
    | FramePressed
    | EditPressed
    | SavePressed
    | FpsChanged(value: string)

  const DefaultFps: nat := 15

  class Recorder {
    var isRecording: bool
    var fps: nat
    var fpsText: string

    /**
     * The rate is a positive `u64`, and whenever the text field parses to a
     * positive number the rate is that number.
     */
    ghost predicate Valid()
      reads this
    {
      && 0 < fps <= U64Max
      && (ParseU64(fpsText).Some? && ParseU64(fpsText).value > 0 ==> fps == ParseU64(fpsText).value)
    }

    /** `new`: not recording, 15 fps shown as "15". */
    constructor ()
      ensures Valid()
      ensures !isRecording && fps == DefaultFps && fpsText == "15"
    {
      isRecording := false;
      fps := DefaultFps;
      fpsText := "15";
      assert DigitsValue("1") == 1;
      assert DigitsValue("15") == 15;
    }

    /**
     * `update`: Record and Stop set the flag; an empty frame-rate text is
     * shown and keeps the rate; an all-numeric text is shown and sets the rate
     * when it parses to a positive `u64`; any other text and any other message
     * change nothing.
     */
    method Update(msg: Message)
      requires Valid()
      modifies this
      ensures Valid()
      ensures msg == RecordPressed ==> isRecording && fps == old(fps) && fpsText == old(fpsText)
      ensures msg == StopPressed ==> !isRecording && fps == old(fps) && fpsText == old(fpsText)
      ensures !msg.FpsChanged? && !msg.RecordPressed? && !msg.StopPressed? ==> unchanged(this)
      ensures msg.FpsChanged? && !AllNumeric(msg.value) ==> unchanged(this)
      ensures msg.FpsChanged? && AllNumeric(msg.value) ==>
                && isRecording == old(isRecording)
                && fpsText == msg.value
                && fps == (if ParseU64(msg.value).Some? && ParseU64(msg.value).value > 0
                           then ParseU64(msg.value).value else old(fps))
    {
      match msg
      case RecordPressed =>
        isRecording := true;
      case StopPressed =>
        isRecording := false;
      case FpsChanged(val) =>
        if val == [] {
          fpsText := val;
        } else if AllNumeric(val) {
          fpsText := val;
          var parsed := ParseU64(val);
          if parsed.Some? {
            if parsed.value > 0 {
              fps := parsed.value;
            }
          }
        }
      case _ =>
    }
  }

  /** Clearing the frame-rate field and then typing "0" shows "0" while the rate stays at 15. */
  method ClearThenZero() returns (fps: nat, shown: string)
    ensures fps == DefaultFps && shown == "0"
  {
    var r := new Recorder();
    r.Update(FpsChanged([]));
    assert ParseU64("0") == Some(0);
    r.Update(FpsChanged("0"));
    fps := r.fps;
    shown := r.fpsText;
  }

  /** Typing "24" sets the rate; a following "24x" is refused and changes nothing. */
  method TypeRate() returns (fps: nat, shown: string)
    ensures fps == 24 && shown == "24"
  {
    var r := new Recorder();
    assert DigitsValue("2") == 2;
    assert DigitsValue("24") == 24;
    r.Update(FpsChanged("24"));
    assert !IsNumeric('x');
    r.Update(FpsChanged("24x"));
    fps := r.fps;
    shown := r.fpsText;
  }
}

=== FILE: wrappers.dfy ===
/** Option and Result values for the recorder's "nothing here" and error paths. */
module Wrappers {

  /** A value that may be absent (Python `None`, Rust `Option`). */
  datatype Option<+T> = None | Some(value: T)

  /** A success or an error (Rust `Result`, a Python exception caught by its caller). */
  datatype Result<+T, +E> = Ok(value: T) | Err(error: E)
}
